=== FILE: README.md ===
# Music recommendation demo: a Dafny model of its core

This project models the non-numeric core of a small music-recommendation
system. The system has four parts.

- **The Flask scoring service** (`ml_service/ml_service.py`):
  - `/recommend-song` validates the request and finds the seed row by
    case-insensitive name and artist.
  - It then asks a fitted nearest-neighbour model for `n + 1` neighbours and
    drops the first.
  - `/recommend-mood` validates the mood and filters the catalogue through
    the fixed `mood_filters` ranges, then through an optional tag filter.
  - It sorts the rows descending over the mood's features and keeps the
    first `top_n`.
- **Catalogue preparation** (`ml_service/prepare_models.py`):
  - `unify_tags` strips, lower-cases and de-underscores each comma-separated
    tag, maps it through a synonym table, and joins the distinct results,
    sorted, with commas.
  - The `text_features` column is the unified tags three times, then the
    artist.
- **The Node backend** (`backend/server.js`):
  - A process-wide Spotify token cache whose stored expiry is 300 seconds
    earlier than the granted one.
  - The Spotify metadata and audio-features routes, which sit behind that
    token.
  - The Genius search route.
  - Two routes that forward recommendation requests to the scoring service
    and map its errors.
- **The offline recommender** (`improved2.py`):
  - The `split_artists` tokenizer.
  - Duplicate-row removal on `(track_name, artists)`.
  - Seed selection: the most popular matching row, the earliest on a tie.
  - The neighbour slicing of `get_recommendations`.

Files and modules:

| file | module | models |
|---|---|---|
| `seqs.dfy` | `Seqs` | `Option`, the nearest-neighbour answer, Python slicing `s[:n]` and `s[1:]`, pandas `iloc` with negative positions, boolean-mask filtering |
| `text.dfy` | `Text` | ASCII `lower`, `strip`, `split`, `join`, substring `in`, string ordering |
| `tags.dfy` | `Tags` | `unify_tags`, `text_features` |
| `ml_service.dfy` | `MlService` | both Flask routes |
| `token_cache.dfy` | `TokenCache` | `spotifyToken`, `getSpotifyToken`, `ensureValidToken` |
| `backend.dfy` | `Backend` | the five Express routes |
| `offline.dfy` | `Offline` | the logic of `improved2.py` listed above |

How outside parties are represented:

- **Clock.** Time is an explicit integer in milliseconds.
- **Token exchange.** The Spotify token exchange is an input (`Grant`): either
  an access token with its lifetime and the clock reading when the response
  arrived, or a failure.
- **Spotify lookups, Genius search and the nearest-neighbour model.** Each is
  an oracle function of the request it receives.
- **Record of activity.** Every backend handler returns the outgoing calls it
  made, in order. The two Spotify handlers also return the token cache they
  leave behind; the Genius and proxy handlers never touch it.

Facts of the code that shape the model:

- **Three independent lookups.** Metadata, audio features and the Genius link
  are three separate routes (`backend/server.js:91-172`), each with its own
  errors; no request combines them. They are modelled as three routes.
- **Renewal instant.** Renewal happens exactly when
  `now >= arrival + (expires_in - 300) * 1000`, where `arrival` is the clock
  reading when the exchange answered. For a non-empty access token, a request
  299 seconds before the granted expiry therefore renews, and one 301 seconds
  before it does not. `TokenCache.RenewedTokenLifetime` states this rule. An
  empty access token is renewed on every call instead.
- **Token-exchange errors.** A failed exchange raises inside the route's
  `try` block, so it becomes the same 500 reply as a failed lookup.

Other behaviours of the code that the model states:

- **Empty token.** An empty access token is falsy in JavaScript, so the
  backend renews on every call (`TokenCache.EmptyTokenAlwaysRenewed`).
- **Null expiry.** JavaScript compares `now` with a null expiry as with 0.
- **Tag normalisation is not idempotent.** Stripping happens before `_`
  becomes a space, so `"rock_"` unifies to `"rock "` and that unifies again
  to `"rock"` (`Tags.UnifyTagsNotIdempotent`).

## Model

| member | source | states |
|---|---|---|
| Seqs.Head | ml_service/ml_service.py:97 | `head(n)` keeps a prefix of length `min(n, len)`; a negative `n` drops `-n` rows from the end |
| Seqs.DropFirst | ml_service/ml_service.py:57 | `[1:]` is empty on an empty list, and otherwise is the list shifted by one |
| Seqs.Resolve | ml_service/ml_service.py:57 | a valid pandas position designates a row; a negative one counts from the end |
| Seqs.ILoc | ml_service/ml_service.py:57 | `iloc[ids]` succeeds exactly when every position is in range; row `k` of the result is the row at `ids[k]` |
| Seqs.Filter | ml_service/ml_service.py:76 | a boolean-mask selection keeps exactly the rows satisfying the mask, each with its multiplicity |
| Seqs.FilterConcat | improved2.py:62 | a selection keeps the input order: selecting from `a + b` is selecting from `a`, then from `b` |
| Seqs.FilterFilter | ml_service/ml_service.py:75-76 | two masks applied in a row select what one mask by their conjunction selects |
| Text.Lower | ml_service/prepare_models.py:17 | `lower()` maps each upper-case ASCII letter to lower case and changes nothing else |
| Text.Strip | ml_service/prepare_models.py:17 | `strip()` removes exactly a leading and a trailing whitespace run, so inner whitespace stays; the result neither starts nor ends with whitespace and is empty exactly for an all-whitespace string |
| Text.StripIdempotent | ml_service/prepare_models.py:17 | stripping twice is stripping once |
| Text.Split | ml_service/prepare_models.py:17 | `split(',')` gives one more piece than there are commas, and no piece contains a comma |
| Text.JoinSplit | ml_service/prepare_models.py:17 | joining the pieces of a split with the separator restores the string |
| Text.SplitConcat | improved2.py:60 | the pieces of `x + sep + y` are the pieces of `x` followed by those of `y` |
| Text.SplitJoin | ml_service/prepare_models.py:26 | splitting a join of at least one separator-free part restores the parts |
| Text.Contains | ml_service/ml_service.py:85 | `tag in x` holds exactly when the tag occurs at some position of `x` |
| Text.LexLessTotal | ml_service/prepare_models.py:26 | Python's string order, which `sorted` uses, ranks any two different strings |
| Tags.TagGroupsWellFormed | ml_service/prepare_models.py:18-24 | every synonym in the table is a well-formed tag: no `_`, no comma, no upper case |
| Tags.Normalise | ml_service/prepare_models.py:17 | a normalised piece has no `_` and no upper-case letter, and gains no comma. It has the length of the stripped piece, and each character is that of the stripped piece, lower-cased, with `_` read as a space |
| Tags.Canonical | ml_service/prepare_models.py:17-25 | a comma-free piece normalises and maps to a well-formed tag |
| Tags.CanonicalPieces | ml_service/prepare_models.py:17-25 | there is one mapped tag per comma piece, in input order |
| Tags.InsertUnique | ml_service/prepare_models.py:26 | adding a tag to a strictly ascending list keeps it strictly ascending with the expected members |
| Tags.SortedSet | ml_service/prepare_models.py:26 | `sorted(set(xs))` is strictly ascending with the members of `xs` |
| Tags.AscendingUnique | ml_service/prepare_models.py:26 | two strictly ascending lists with the same members are equal, so the sorted set is unique |
| Tags.UnifyTags | ml_service/prepare_models.py:16 | a missing tag string unifies to the empty string |
| Tags.UnifyTagsContents | ml_service/prepare_models.py:15-26 | splitting the unified string on commas gives strictly ascending, well-formed tags, and they are exactly the canonical tags of the input pieces |
| Tags.UnifyTagsIsSortedJoin | ml_service/prepare_models.py:25-26 | the unified string is the comma-join of the one strictly ascending list of the canonical tags |
| Tags.UnifyTagsNotIdempotent | ml_service/prepare_models.py:17 | `"rock_"` unifies to `"rock "`, which unifies again to `"rock"`, so unifying is not idempotent |
| Tags.TextFeatures | ml_service/prepare_models.py:35-36 | the unified tags (empty when missing) fill three slots, each followed by a space, and the artist is the exact suffix |
| MlService.LookupMood | ml_service/ml_service.py:70 | a name finds the mood whose table key it is, and finds nothing when it is no key |
| MlService.MoodRanges | ml_service/ml_service.py:13-20 | every mood has at least one range, and every range has `low <= high` |
| MlService.FindSeed | ml_service/ml_service.py:42-51 | the seed is the first row whose name and artist equal the request ignoring case; there is none exactly when no row matches |
| MlService.RecommendSong | ml_service/ml_service.py:33-60 | a missing or empty name or artist gives 400, and no matching row gives 404. A 500 comes exactly when the seed exists and the query for `n + 1` neighbours fails or names an out-of-range position after the first (the first position is never looked up); otherwise the rows are those at neighbour positions 1.., at most `n` of them. No other reply is possible |
| MlService.ApplyRangesIsConjunction | ml_service/ml_service.py:73-76 | filtering range by range keeps exactly the rows inside every range of the mood, in order |
| MlService.CleanTags | ml_service/ml_service.py:82 | one cleaned tag per selected tag, in order: the lower-cased tag with its leading and trailing whitespace run removed, so it has no upper-case letter and no whitespace at either end |
| MlService.CleanTagsIdempotent | ml_service/ml_service.py:82 | cleaning already cleaned tags changes nothing |
| MlService.BlankTagKeepsEverything | ml_service/ml_service.py:81-87 | a selected tag that is blank after cleaning matches every row |
| MlService.AtLeastTransitive | ml_service/ml_service.py:92 | the descending multi-key order is transitive |
| MlService.InsertDesc | ml_service/ml_service.py:92 | inserting into a descending list keeps it descending and adds exactly one element |
| MlService.SortDesc | ml_service/ml_service.py:92 | `sort_values(..., ascending=False)` is a permutation in non-increasing lexicographic order over the keys |
| MlService.HeadDominatesRest | ml_service/ml_service.py:92-97 | in a descending list, every row kept by `head(n)` is at least as large as every row left out |
| MlService.TopN | ml_service/ml_service.py:92-97 | sort then `head(top_n)` gives the right number of rows, drawn from the input, descending, and none smaller than a row left out |
| MlService.RecommendMood | ml_service/ml_service.py:70-71 | a missing, empty or unknown mood gives 400, and only then |
| MlService.StagesAreEligible | ml_service/ml_service.py:73-87 | the range stage followed by the tag stage keeps exactly the rows that satisfy every range and the tag test |
| MlService.RecommendMoodOutcome | ml_service/ml_service.py:78-90 | the 404 for the mood means no row is in range. The 404 for the tags means some row is in range but none is eligible. Rows are returned exactly when some row is eligible |
| MlService.RecommendMoodRows | ml_service/ml_service.py:92-97 | a successful reply has `top_n` of the eligible rows (Python slicing rules), in descending order over the mood's features, with none smaller than an eligible row left out |
| TokenCache.Renew | backend/server.js:27-49 | a grant replaces the value and stores an expiry 300 s before the granted one. A failed exchange leaves the cache alone and raises "Failed to get Spotify token" |
| TokenCache.EnsureValidToken | backend/server.js:39-57 | an exchange happens exactly when the value is missing or empty, or the clock has reached the stored expiry. Otherwise the cached value is returned unchanged. After a grant the cache holds the new value and the expiry 300 s before the granted one, and the new value is returned; after a failure the cache is unchanged and the error is raised |
| TokenCache.RenewedTokenLifetime | backend/server.js:41-53 | after a grant, a call renews exactly when it comes at or after arrival plus `expires_in - 300` seconds |
| TokenCache.NoSecondRenewal | backend/server.js:39-56 | when a call renews with a non-empty access token and a lifetime above 300 s, a call at the arrival instant uses the cache and changes nothing |
| TokenCache.EmptyTokenAlwaysRenewed | backend/server.js:53 | an empty access token is renewed on every later call |
| TokenCache.ServedTokenHasMargin | backend/server.js:41-56 | a token served without renewal has more than 300 s of its granted lifetime left |
| Backend.Project | backend/server.js:99-106 | the reply takes the first album image and the first artist, with null and "Unknown Artist" when there is none. A missing album, album image list or artist list fails |
| Backend.SpotifyMetadata | backend/server.js:91-111 | a missing id gives 400 with no call and no cache change. Otherwise the calls are exactly the token exchange, when renewal was needed, then the lookup with the obtained bearer, when a token was obtained. A 200 comes exactly when the token is obtained, Spotify answers 2xx and the projection succeeds. The last call is then the lookup with the cached bearer. Every other failure gives 500 "Failed to fetch Spotify metadata" |
| Backend.AudioFeatures | backend/server.js:114-136 | same shape as the metadata route, including the exact list of calls. The five feature fields pass through unchanged; failures give 500 "Failed to fetch audio features" |
| Backend.CachedTokenMakesOneCall | backend/server.js:52-57 | with a valid cached token, the metadata route makes exactly one call, the lookup with the cached bearer, and leaves the cache unchanged |
| Backend.TokenFailureStopsRoute | backend/server.js:93-110 | a failed exchange ends the route with 500 after that one call; Spotify is not asked |
| Backend.GeniusInfo | backend/server.js:140-172 | a missing song or artist gives 400, and a missing client gives 500, neither making a call. Otherwise it makes one search: a throw gives 500, a null or empty result gives 404, and a hit gives 200 with the first hit's url |
| Backend.Proxy | backend/server.js:71-88 | a 2xx answer is forwarded as 200 with its body. Any other answer keeps its own status and body. No answer gives 500 "Error communicating with ML service." |
| Backend.ProxySongKeepsReply | backend/server.js:71-79 | every song-recommendation reply reaches the browser with its own status and body |
| Backend.ProxyMoodKeepsReply | backend/server.js:80-88 | every mood-recommendation reply reaches the browser with its own status and body |
| Offline.CleanArtist | improved2.py:61 | a cleaned piece keeps only letters, digits and whitespace taken from the piece, with no whitespace at either end. It loses no letter or digit of the piece, and keeps their order |
| Offline.CleanPieces | improved2.py:60-61 | there is one cleaned piece per `;` piece, in order |
| Offline.SplitArtists | improved2.py:54-62 | `None` gives no tokens. Otherwise there are at most `count(';') + 1` tokens, each non-empty and tidy, and they are exactly the non-empty cleaned pieces |
| Offline.SplitArtistsConcat | improved2.py:59-62 | the tokens keep the artists' order: the tokens of `x;y` are the tokens of `x` followed by those of `y` |
| Offline.CleanToken | improved2.py:61 | cleaning a token changes nothing |
| Offline.SplitArtistsRejoin | improved2.py:54-62 | tokenizing the `;`-join of the tokens gives the same tokens |
| Offline.RejoinTokens | improved2.py:60-62 | the `;`-join of at least one artist token tokenizes back to those tokens |
| Offline.NoTokensInEmpty | improved2.py:60-62 | the empty string has no tokens |
| Offline.DropDuplicates | improved2.py:46-49 | the kept rows are exactly the first of each `(track_name, artists)` key, in original order. No two kept rows share a key, and every row's key is kept no later than the row |
| Offline.KeptKeysDistinct | improved2.py:46 | rows that are each the first of their key have distinct keys |
| Offline.KeptKeysCover | improved2.py:46 | keeping every first-of-key row keeps every key |
| Offline.FirstWithKey | improved2.py:46 | every row has a first row with its key at or before it |
| Offline.BestSeedUnique | improved2.py:184-190 | at most one row is the most popular candidate that is earliest among equals |
| Offline.SelectSeed | improved2.py:174-190 | no seed exactly when no row matches the name and contains the artist, ignoring case. Otherwise the seed is the most popular candidate, earliest on a tie |
| Offline.GetRecommendations | improved2.py:172-209 | no candidate gives the empty result. Otherwise the rows are those at neighbour positions 1.. of a query for `n + 1` neighbours of the best seed, at most `n` of them. A failed query or an out-of-range position after the first raises; the first position is never looked up |

## Left out

- I/O and start-up: reading CSV, parquet and joblib files, `load_models`, the
  MongoDB connection, `app.listen` and logging. None of it affects a reply.
- Model fitting and numeric feature work: MinMax scaling, TF-IDF, SVD, the
  Keras autoencoder, and cosine nearest neighbours. These are floating-point
  library code, so the fitted neighbour model is an oracle.
- Similarity scores `1 - distance`. These are floating-point values attached to
  the rows; the rows themselves are modelled.
- The column projections of the JSON replies (`display_cols`, the
  `recommendations[[...]]` selection). A reply carries whole rows.
- The exact error texts of the Flask replies. A reply carries a reason and a
  status, because the texts interpolate the request.
- `dropna` before de-duplication, because NaN is not modelled. The
  `reset_index` after it is modelled by numbering the output rows from 0.
- `num_recommendations` sent explicitly as `null`. The model reads a missing
  field as the default of 12 and does not model a null one. On
  `/recommend-song` Python then adds 1 to `None` and the service fails with a
  500; on `/recommend-mood` `head(None)` returns every eligible row with
  status 200.
- `Backend.Project`: an image object without a `url` key and one whose `url`
  is null are both `None`. The JSON reply leaves `albumArt` out in the first
  case and writes null in the second. A falsy first image (null) is not
  modelled; the model's images are always objects.
- `Backend.Project` and `Backend.GeniusInfo`: other JSON shapes of the
  upstream answers. These are a null first artist, which gives
  'Unknown Artist' in the source, and a missing versus a null `name`,
  `album.name`, `release_date` or `artists[0].name`, both modelled as `None`.
  A null first Genius hit is also left out: it throws a TypeError in the
  source, so the route answers 500. The model's artists and hits are always
  objects.
- `TokenCache.Renew` and the Spotify payloads: upstream answers of other JSON
  shapes. A token response without `expires_in` stores a NaN expiry, and
  `now >= NaN` is false, so such a token is never renewed; `Grant.expiresIn`
  is an integer and cannot express it. A null `response.data` from a track or
  audio-features lookup makes the destructuring throw, so the route answers
  500; the model's payloads are always records.
- Malformed request bodies (non-JSON, fields of other types), and an array
  `trackId` in the Express query string.
- `Offline.Candidate`: pandas `str.contains` reads the artist query as a
  regular expression. The model reads it as a plain substring, which agrees
  when the query has no regular-expression metacharacters.
- Non-ASCII text. `lower`, `strip` and `\s` are modelled on ASCII only.
- `MlService.SortDesc`: pandas sorts on several keys with a stable lexsort, so
  rows with equal keys keep their input order. The model's insertion sort
  also places each row after the equal rows before it, but the contract
  claims only the descending order and the permutation, not this stability.
- Concurrent requests racing on the token cache. Each handler runs to
  completion on the state it is given.
- The audio-features route's upstream URL (an embed page rather than the audio
  features API). The answer is an oracle, whatever the URL.
- The browser UI, `improved_collaborative.py`, `collaborative_reccomender1.py`,
  and the interactive `input()` loop of `improved2.py`.

=== FILE: backend.dfy ===
/**
 The route handlers of the Node backend (backend/server.js): Spotify track
 metadata and audio features behind the cached token, the Genius search, and
 the two recommendation routes forwarded to the Python service.

 Every outside party is an input: the Spotify and Genius answers are oracles
 of the request they receive, and each handler returns the outgoing calls it
 made, in order. The two Spotify handlers also return the token cache they
 leave behind; the Genius and proxy handlers never touch it.
 */
module Backend {
  import opened Seqs
  import opened TokenCache
  import MlService

  /** An outgoing request made while handling one route. */
  datatype Call =
    | TokenExchange
    | TrackLookup(trackId: string, bearer: string)
    | FeaturesLookup(trackId: string, bearer: string)
    | GeniusSearch(query: string)
    | MlForward(path: string)

  /** What an HTTP client call yields: a response with its status and body, or
      no response at all (connection refused, timeout). */
  datatype Upstream<P> = Answered(status: int, payload: P) | NoResponse

  /** axios resolves only on a 2xx status; any other status is thrown. */
  predicate Success(status: int) {
    200 <= status < 300
  }

  // ---------------------------------------------------------------------
  // Spotify payloads and the JSON the backend sends back

  datatype Image = Image(url: Option<string>)
  datatype Artist = Artist(name: Option<string>)
  /** `images` is None when the album object has no `images` field. */
  datatype Album = Album(name: Option<string>, releaseDate: Option<string>, images: Option<seq<Image>>)

  /** The fields of a Spotify track object the backend reads; `album`,
      `album.images` or `artists` missing makes the projection throw. */
  datatype TrackPayload = TrackPayload(name: Option<string>, album: Option<Album>, artists: Option<seq<Artist>>)

  datatype Metadata = Metadata(
    name: Option<string>, albumName: Option<string>, releaseDate: Option<string>,
    albumArt: Option<string>, artistName: Option<string>)

  /** The five audio-feature fields, passed through as found (absent stays absent). */
  datatype Features = Features(
    danceability: Option<real>, energy: Option<real>, valence: Option<real>,
    acousticness: Option<real>, instrumentalness: Option<real>)

  datatype Body =
    | MetadataBody(metadata: Metadata)
    | FeaturesBody(features: Features)
    | GeniusBody(geniusUrl: Option<string>)
    | ErrorBody(error: string)

  datatype Reply = Reply(status: int, body: Body)

  /** A handled request: the token cache afterwards, the reply, and the calls made. */
  datatype Handled = Handled(state: Token, reply: Reply, calls: seq<Call>)

  const TrackIdRequired := "Track ID is required"
  const MetadataFailed := "Failed to fetch Spotify metadata"
  const FeaturesFailed := "Failed to fetch audio features"

  /** The JSON built from a track: the album's first image and the first
      artist, with `null` and `'Unknown Artist'` standing in when there is none;
      None when `album`, its `images` or `artists` is missing (a TypeError in
      the handler). */
  function Project(p: TrackPayload): (r: Option<Metadata>)
    ensures r.Some? <==> p.album.Some? && p.album.value.images.Some? && p.artists.Some?
    ensures r.Some? ==>
      && r.value.name == p.name
      && r.value.albumName == p.album.value.name
      && r.value.releaseDate == p.album.value.releaseDate
    ensures r.Some? && |p.album.value.images.value| == 0 ==> r.value.albumArt == None
    ensures r.Some? && 0 < |p.album.value.images.value| ==> r.value.albumArt == p.album.value.images.value[0].url
    ensures r.Some? && 0 < |p.artists.value| ==> r.value.artistName == p.artists.value[0].name
    ensures r.Some? && |p.artists.value| == 0 ==> r.value.artistName == Some("Unknown Artist")
  {
    match (p.album, p.artists)
    case (Some(Album(albumName, releaseDate, Some(images))), Some(artists)) =>
      Some(Metadata(
        p.name, albumName, releaseDate,
        if 0 < |images| then images[0].url else None,
        if 0 < |artists| then artists[0].name else Some("Unknown Artist")))
    case _ => None
  }

  /** The calls made to obtain a bearer token: one exchange when renewal was needed. */
  function TokenCalls(a: Access): (r: seq<Call>)
    ensures a.exchanged <==> r == [TokenExchange]
    ensures !a.exchanged <==> r == []
  {
    if a.exchanged then [TokenExchange] else []
  }

  /** `GET /api/spotify-metadata`: 400 without a track id (nothing else
      happens); otherwise obtain a token, look the track up with it and project
      the answer; any failure on the way is a 500. */
  function SpotifyMetadata(state: Token, now: int, grant: Grant, trackId: Option<string>,
                           spotify: (string, string) -> Upstream<TrackPayload>): (h: Handled)
    ensures Blank(trackId) <==> h.reply == Reply(400, ErrorBody(TrackIdRequired))
    ensures Blank(trackId) ==> h.state == state && h.calls == []
    ensures !Blank(trackId) ==> h.state == EnsureValidToken(state, now, grant).state
    ensures !Blank(trackId) ==>
      var a := EnsureValidToken(state, now, grant);
      h.calls == (if a.exchanged then [TokenExchange] else [])
                 + (if a.result.Fetched? then [TrackLookup(trackId.value, a.result.bearer)] else [])
    ensures h.reply.status in {200, 400, 500}
    ensures h.reply.status == 500 ==> h.reply.body == ErrorBody(MetadataFailed)
    ensures h.reply.status == 200 <==>
      && !Blank(trackId)
      && EnsureValidToken(state, now, grant).result.Fetched?
      && var lookup := spotify(trackId.value, EnsureValidToken(state, now, grant).result.bearer);
         lookup.Answered? && Success(lookup.status) && Project(lookup.payload).Some?
    ensures h.reply.status == 200 ==>
      && h.reply.body.MetadataBody?
      && 0 < |h.calls| && h.calls[|h.calls| - 1] == TrackLookup(trackId.value, h.state.value.value)
      && Project(spotify(trackId.value, h.state.value.value).payload) == Some(h.reply.body.metadata)
  {
    match trackId
    case None => Handled(state, Reply(400, ErrorBody(TrackIdRequired)), [])
    case Some(id) =>
      if id == "" then Handled(state, Reply(400, ErrorBody(TrackIdRequired)), [])
      else
        var access := EnsureValidToken(state, now, grant);
        match access.result
        case FetchFailed(_) => Handled(access.state, Reply(500, ErrorBody(MetadataFailed)), TokenCalls(access))
        case Fetched(bearer) =>
          var calls := TokenCalls(access) + [TrackLookup(id, bearer)];
          var lookup := spotify(id, bearer);
          if lookup.Answered? && Success(lookup.status) then
            match Project(lookup.payload)
            case Some(m) => Handled(access.state, Reply(200, MetadataBody(m)), calls)
            case None => Handled(access.state, Reply(500, ErrorBody(MetadataFailed)), calls)
          else
            Handled(access.state, Reply(500, ErrorBody(MetadataFailed)), calls)
  }

  /** `GET /api/audio-features`: the same steps as the metadata route, with the
      five feature fields passed through unchanged. */
  function AudioFeatures(state: Token, now: int, grant: Grant, trackId: Option<string>,
                         spotify: (string, string) -> Upstream<Features>): (h: Handled)
    ensures Blank(trackId) <==> h.reply == Reply(400, ErrorBody(TrackIdRequired))
    ensures Blank(trackId) ==> h.state == state && h.calls == []
    ensures !Blank(trackId) ==> h.state == EnsureValidToken(state, now, grant).state
    ensures !Blank(trackId) ==>
      var a := EnsureValidToken(state, now, grant);
      h.calls == (if a.exchanged then [TokenExchange] else [])
                 + (if a.result.Fetched? then [FeaturesLookup(trackId.value, a.result.bearer)] else [])
    ensures h.reply.status in {200, 400, 500}
    ensures h.reply.status == 500 ==> h.reply.body == ErrorBody(FeaturesFailed)
    ensures h.reply.status == 200 <==>
      && !Blank(trackId)
      && EnsureValidToken(state, now, grant).result.Fetched?
      && var lookup := spotify(trackId.value, EnsureValidToken(state, now, grant).result.bearer);
         lookup.Answered? && Success(lookup.status)
    ensures h.reply.status == 200 ==>
      && 0 < |h.calls| && h.calls[|h.calls| - 1] == FeaturesLookup(trackId.value, h.state.value.value)
      && h.reply.body == FeaturesBody(spotify(trackId.value, h.state.value.value).payload)
  {
    match trackId
    case None => Handled(state, Reply(400, ErrorBody(TrackIdRequired)), [])
    case Some(id) =>
      if id == "" then Handled(state, Reply(400, ErrorBody(TrackIdRequired)), [])
      else
        var access := EnsureValidToken(state, now, grant);
        match access.result
        case FetchFailed(_) => Handled(access.state, Reply(500, ErrorBody(FeaturesFailed)), TokenCalls(access))
        case Fetched(bearer) =>
          var calls := TokenCalls(access) + [FeaturesLookup(id, bearer)];
          var lookup := spotify(id, bearer);
          if lookup.Answered? && Success(lookup.status) then
            Handled(access.state, Reply(200, FeaturesBody(lookup.payload)), calls)
          else
            Handled(access.state, Reply(500, ErrorBody(FeaturesFailed)), calls)
  }

  /** A Spotify route that finds a valid cached token makes exactly one call,
      the lookup, and sends the cached value as the bearer. */
  lemma CachedTokenMakesOneCall(state: Token, now: int, grant: Grant, trackId: string,
                                spotify: (string, string) -> Upstream<TrackPayload>)
    requires trackId != ""
    requires !NeedsRenewal(state, now)
    ensures SpotifyMetadata(state, now, grant, Some(trackId), spotify).calls == [TrackLookup(trackId, state.value.value)]
    ensures SpotifyMetadata(state, now, grant, Some(trackId), spotify).state == state
  {
  }

  /** A failed token exchange ends the route with a 500 after the one exchange
      attempt; Spotify is never asked for the track. */
  lemma TokenFailureStopsRoute(state: Token, now: int, trackId: string,
                               spotify: (string, string) -> Upstream<TrackPayload>)
    requires trackId != ""
    requires NeedsRenewal(state, now)
    ensures var h := SpotifyMetadata(state, now, ExchangeFailed, Some(trackId), spotify);
      h.reply == Reply(500, ErrorBody(MetadataFailed)) && h.calls == [TokenExchange] && h.state == state
  {
  }

  // ---------------------------------------------------------------------
  // Genius

  datatype GeniusHit = GeniusHit(url: Option<string>)

  /** What `geniusClient.songs.search` produces: a list that may be null, or a throw. */
  datatype Search = Hits(songs: Option<seq<GeniusHit>>) | SearchThrew

  const SongAndArtistRequired := "Song and artist are required"
  const GeniusNotConfigured := "Genius API key not configured on server."
  const GeniusNotFound := "Song not found on Genius"
  const GeniusFailed := "Failed to fetch Genius info. Check backend logs."

  /** The search text: the song, one space, the artist. */
  function GeniusQuery(song: string, artist: string): (q: string)
    ensures |q| == |song| + 1 + |artist|
    ensures q[..|song|] == song && q[|song|] == ' ' && q[|song| + 1..] == artist
  {
    song + " " + artist
  }

  /** `GET /api/genius-info`. `configured` says whether a Genius client was
      built (an access token was set when the server started). */
  function GeniusInfo(configured: bool, song: Option<string>, artist: Option<string>,
                      search: string -> Search): (r: (Reply, seq<Call>))
    ensures Blank(song) || Blank(artist) <==> r.0 == Reply(400, ErrorBody(SongAndArtistRequired))
    ensures r.0.status == 400 || !configured ==> r.1 == []
    ensures !(Blank(song) || Blank(artist)) && !configured <==> r.0 == Reply(500, ErrorBody(GeniusNotConfigured))
    ensures !(Blank(song) || Blank(artist)) && configured ==>
      && r.1 == [GeniusSearch(GeniusQuery(song.value, artist.value))]
      && var found := search(GeniusQuery(song.value, artist.value));
         && (found.SearchThrew? <==> r.0 == Reply(500, ErrorBody(GeniusFailed)))
         && (found.Hits? && (found.songs.None? || found.songs.value == []) <==> r.0 == Reply(404, ErrorBody(GeniusNotFound)))
         && (found.Hits? && found.songs.Some? && found.songs.value != [] ==> r.0 == Reply(200, GeniusBody(found.songs.value[0].url)))
         && (r.0.status == 200 ==> found.Hits? && found.songs.Some? && found.songs.value != [])
  {
    if Blank(song) || Blank(artist) then (Reply(400, ErrorBody(SongAndArtistRequired)), [])
    else if !configured then (Reply(500, ErrorBody(GeniusNotConfigured)), [])
    else
      var query := GeniusQuery(song.value, artist.value);
      var calls := [GeniusSearch(query)];
      match search(query)
      case SearchThrew => (Reply(500, ErrorBody(GeniusFailed)), calls)
      case Hits(None) => (Reply(404, ErrorBody(GeniusNotFound)), calls)
      case Hits(Some(songs)) =>
        if |songs| == 0 then (Reply(404, ErrorBody(GeniusNotFound)), calls)
        else (Reply(200, GeniusBody(songs[0].url)), calls)
  }

  // ---------------------------------------------------------------------
  // Forwarding to the recommendation service

  const MlServiceError := "Error communicating with ML service."

  datatype Forwarded<P> = Passed(payload: P) | ForwardError(error: string)

  /** `POST /api/recommend-song` and `/api/recommend-mood`: the request body is
      posted unchanged to the Python service at `path`. A 2xx answer is sent on
      as 200 with its body; another status is sent on with its own status and
      body; no answer at all is a 500. */
  function Proxy<Q, P>(path: string, body: Q, service: Q -> Upstream<P>): (r: (int, Forwarded<P>, seq<Call>))
    ensures r.2 == [MlForward(path)]
    ensures service(body).NoResponse? <==> r.0 == 500 && r.1 == ForwardError(MlServiceError)
    ensures service(body).Answered? ==> r.1 == Passed(service(body).payload)
    ensures service(body).Answered? && Success(service(body).status) ==> r.0 == 200
    ensures service(body).Answered? && !Success(service(body).status) ==> r.0 == service(body).status
  {
    match service(body)
    case NoResponse => (500, ForwardError(MlServiceError), [MlForward(path)])
    case Answered(status, payload) =>
      if Success(status) then (200, Passed(payload), [MlForward(path)])
      else (status, Passed(payload), [MlForward(path)])
  }

  /** The HTTP status Flask gives a reply of the recommendation service. */
  function ServiceStatus(reply: MlService.Reply): int {
    match reply
    case Records(_) => 200
    case Problem(status, _) => status
  }

  /** The recommendation service as the backend sees it when it answers. */
  function Serve(reply: MlService.Reply): Upstream<MlService.Reply> {
    Answered(ServiceStatus(reply), reply)
  }

  /** The statuses the recommendation service can answer with are 200 and
      400/404/500, so forwarding keeps both the status and the body of every
      song recommendation exactly. */
  lemma ProxySongKeepsReply(catalogue: seq<MlService.Song>, req: MlService.SongRequest,
                            knn: (nat, int) -> Neighbours)
    ensures var reply := MlService.RecommendSong(catalogue, req, knn);
      var r := Proxy("/recommend-song", req, (q: MlService.SongRequest) => Serve(MlService.RecommendSong(catalogue, q, knn)));
      r.0 == ServiceStatus(reply) && r.1 == Passed(reply)
  {
    var reply := MlService.RecommendSong(catalogue, req, knn);
    assert reply.Problem? ==> reply.status in {400, 404, 500};
  }

  /** The same for mood recommendations. */
  lemma ProxyMoodKeepsReply(catalogue: seq<MlService.Song>, req: MlService.MoodRequest)
    ensures var reply := MlService.RecommendMood(catalogue, req);
      var r := Proxy("/recommend-mood", req, (q: MlService.MoodRequest) => Serve(MlService.RecommendMood(catalogue, q)));
      r.0 == ServiceStatus(reply) && r.1 == Passed(reply)
  {
    var reply := MlService.RecommendMood(catalogue, req);
    assert reply.Problem? ==> reply.status in {400, 404};
  }
}

=== FILE: ml_service.dfy ===
/**
 The Flask scoring service (ml_service/ml_service.py): recommendation by a
 seed song, through a nearest-neighbour model, and by mood, through the fixed
 `mood_filters` table, an optional tag filter, a descending multi-key sort and
 truncation.

 The catalogue is a sequence of rows whose audio features are reals that are
 only compared, never computed with. The fitted nearest-neighbour model is an
 oracle: given a catalogue position and a neighbour count it returns catalogue
 positions (nearest first) or fails.
 */
module MlService {
  import opened Seqs
  import opened Text

  datatype Feature =
    | Danceability | Energy | Loudness | Speechiness | Acousticness
    | Instrumentalness | Liveness | Valence | Tempo

  /** A catalogue row: the displayed columns and the audio features. */
  datatype Song = Song(
    name: string, artist: string, year: int, spotifyId: string, tagsUnified: string,
    danceability: real, energy: real, loudness: real, speechiness: real,
    acousticness: real, instrumentalness: real, liveness: real, valence: real,
    tempo: real)

  function Value(s: Song, f: Feature): real {
    match f
    case Danceability => s.danceability
    case Energy => s.energy
    case Loudness => s.loudness
    case Speechiness => s.speechiness
    case Acousticness => s.acousticness
    case Instrumentalness => s.instrumentalness
    case Liveness => s.liveness
    case Valence => s.valence
    case Tempo => s.tempo
  }

  /** One `feature: (low, high)` entry of a mood; both ends are inclusive. */
  datatype Range = Range(feature: Feature, low: real, high: real)

  datatype Mood = Happy | Sad | Chill | Energetic | Live | Romantic

  function MoodName(m: Mood): string {
    match m
    case Happy => "happy"
    case Sad => "sad"
    case Chill => "chill"
    case Energetic => "energetic"
    case Live => "live"
    case Romantic => "romantic"
  }

  /** `mood in mood_filters`: the mood whose key is `name`, if any. */
  function LookupMood(name: string): (r: Option<Mood>)
    ensures r.Some? ==> MoodName(r.value) == name
    ensures r.None? ==> forall m: Mood :: MoodName(m) != name
  {
    if name == "happy" then Some(Happy)
    else if name == "sad" then Some(Sad)
    else if name == "chill" then Some(Chill)
    else if name == "energetic" then Some(Energetic)
    else if name == "live" then Some(Live)
    else if name == "romantic" then Some(Romantic)
    else None
  }

  /** The `mood_filters` table, each mood's ranges in their table order. */
  function MoodRanges(m: Mood): (r: seq<Range>)
    ensures 0 < |r|
    ensures forall k :: 0 <= k < |r| ==> r[k].low <= r[k].high
  {
    match m
    case Happy => [Range(Energy, 0.6, 1.0), Range(Valence, 0.6, 1.0), Range(Danceability, 0.6, 1.0)]
    case Sad => [Range(Energy, 0.0, 0.4), Range(Valence, 0.0, 0.4), Range(Acousticness, 0.5, 1.0)]
    case Chill => [Range(Energy, 0.2, 0.6), Range(Valence, 0.3, 0.7), Range(Acousticness, 0.5, 1.0), Range(Tempo, 60.0, 120.0)]
    case Energetic => [Range(Energy, 0.7, 1.0), Range(Danceability, 0.6, 1.0), Range(Tempo, 120.0, 200.0)]
    case Live => [Range(Liveness, 0.7, 1.0), Range(Energy, 0.5, 1.0)]
    case Romantic => [Range(Valence, 0.4, 0.8), Range(Acousticness, 0.3, 1.0), Range(Energy, 0.3, 0.7)]
  }

  /** The sort keys of a mood: its range features in table order. */
  function SortKeys(ranges: seq<Range>): (keys: seq<Feature>)
    ensures |keys| == |ranges|
    ensures forall k :: 0 <= k < |keys| ==> keys[k] == ranges[k].feature
  {
    seq(|ranges|, k requires 0 <= k < |ranges| => ranges[k].feature)
  }

  // ---------------------------------------------------------------------------
  // Requests and replies

  /** `data.get('num_recommendations', 12)`. */
  const DefaultCount := 12

  datatype SongRequest = SongRequest(songName: Option<string>, artistName: Option<string>, numRecommendations: Option<int>)

  /** `tags` is None when the field is missing or null. */
  datatype MoodRequest = MoodRequest(mood: Option<string>, tags: Option<seq<string>>, numRecommendations: Option<int>)

  datatype Reason =
    | MissingSongOrArtist
    | SongNotFound
    | InvalidMood
    | NoSongsForMood
    | NoSongsForTags
    | NeighbourSearchFailed

  /** A JSON list of rows (status 200) or an error with its HTTP status. */
  datatype Reply = Records(rows: seq<Song>) | Problem(status: int, reason: Reason)

  // ---------------------------------------------------------------------------
  // Recommendation by song

  /** Case-insensitive equality of both name and artist with the request. */
  predicate IsSeed(s: Song, songName: string, artistName: string) {
    Lower(s.name) == Lower(songName) && Lower(s.artist) == Lower(artistName)
  }

  function FindSeedFrom(catalogue: seq<Song>, songName: string, artistName: string, from: nat): (r: Option<nat>)
    requires from <= |catalogue|
    ensures r.Some? ==> from <= r.value < |catalogue| && IsSeed(catalogue[r.value], songName, artistName)
    ensures r.Some? ==> forall j :: from <= j < r.value ==> !IsSeed(catalogue[j], songName, artistName)
    ensures r.None? ==> forall j :: from <= j < |catalogue| ==> !IsSeed(catalogue[j], songName, artistName)
    decreases |catalogue| - from
  {
    if from == |catalogue| then None
    else if IsSeed(catalogue[from], songName, artistName) then Some(from)
    else FindSeedFrom(catalogue, songName, artistName, from + 1)
  }

  /** `df_final[mask].index[0]`: the first row matching the request, if any. */
  function FindSeed(catalogue: seq<Song>, songName: string, artistName: string): (r: Option<nat>)
    ensures r.Some? ==> r.value < |catalogue| && IsSeed(catalogue[r.value], songName, artistName)
    ensures r.Some? ==> forall j :: 0 <= j < r.value ==> !IsSeed(catalogue[j], songName, artistName)
    ensures r.None? <==> forall j :: 0 <= j < |catalogue| ==> !IsSeed(catalogue[j], songName, artistName)
  {
    FindSeedFrom(catalogue, songName, artistName, 0)
  }

  /** `recommend_song_api`: validate, find the seed, ask the model for one more
      neighbour than requested and drop the first answer. */
  function RecommendSong(catalogue: seq<Song>, req: SongRequest, knn: (nat, int) -> Neighbours): (r: Reply)
    ensures (r == Problem(400, MissingSongOrArtist)) <==> Blank(req.songName) || Blank(req.artistName)
    ensures r == Problem(404, SongNotFound) <==>
      && !Blank(req.songName) && !Blank(req.artistName)
      && forall j :: 0 <= j < |catalogue| ==> !IsSeed(catalogue[j], req.songName.value, req.artistName.value)
    ensures r.Records? ==>
      && !Blank(req.songName) && !Blank(req.artistName)
      && var seed := FindSeed(catalogue, req.songName.value, req.artistName.value);
      && seed.Some?
      && var n := req.numRecommendations.GetOr(DefaultCount);
      && var answer := knn(seed.value, n + 1);
      && answer.Neighbours?
      && |r.rows| == |DropFirst(answer.positions)|
      && (forall k :: 0 <= k < |r.rows| ==>
            ValidPosition(answer.positions[k + 1], |catalogue|) &&
            r.rows[k] == catalogue[Resolve(answer.positions[k + 1], |catalogue|)])
      && (0 < |answer.positions| <= n + 1 ==> |r.rows| <= n)
    ensures r == Problem(500, NeighbourSearchFailed) <==>
      && !Blank(req.songName) && !Blank(req.artistName)
      && var seed := FindSeed(catalogue, req.songName.value, req.artistName.value);
      && seed.Some?
      && var answer := knn(seed.value, req.numRecommendations.GetOr(DefaultCount) + 1);
      && (answer.SearchFailed? || ILoc(catalogue, DropFirst(answer.positions)).None?)
    ensures r.Problem? ==>
      r in {Problem(400, MissingSongOrArtist), Problem(404, SongNotFound), Problem(500, NeighbourSearchFailed)}
  {
    if Blank(req.songName) || Blank(req.artistName) then Problem(400, MissingSongOrArtist)
    else
      match FindSeed(catalogue, req.songName.value, req.artistName.value)
      case None => Problem(404, SongNotFound)
      case Some(seed) =>
        var n := req.numRecommendations.GetOr(DefaultCount);
        match knn(seed, n + 1)
        case SearchFailed => Problem(500, NeighbourSearchFailed)
        case Neighbours(positions) =>
          match ILoc(catalogue, DropFirst(positions))
          case None => Problem(500, NeighbourSearchFailed)
          case Some(rows) =>
            NeighbourRows(catalogue, positions, rows, n);
            Records(rows)
  }

  /** The rows looked up for a neighbour answer are those at its positions
      after the first, at most `n` of them when the answer has at most `n + 1`. */
  lemma NeighbourRows(catalogue: seq<Song>, positions: seq<int>, rows: seq<Song>, n: int)
    requires ILoc(catalogue, DropFirst(positions)) == Some(rows)
    ensures |rows| == |DropFirst(positions)|
    ensures forall k :: 0 <= k < |rows| ==>
      ValidPosition(positions[k + 1], |catalogue|) && rows[k] == catalogue[Resolve(positions[k + 1], |catalogue|)]
    ensures 0 < |positions| <= n + 1 ==> |rows| <= n
  {
    var ids := DropFirst(positions);
    forall k | 0 <= k < |rows|
      ensures ValidPosition(positions[k + 1], |catalogue|) && rows[k] == catalogue[Resolve(positions[k + 1], |catalogue|)]
    {
      assert ids[k] == positions[k + 1];
    }
  }

  // ---------------------------------------------------------------------------
  // Recommendation by mood

  predicate InRange(s: Song, range: Range) {
    range.low <= Value(s, range.feature) <= range.high
  }

  predicate InAllRanges(s: Song, ranges: seq<Range>) {
    forall k :: 0 <= k < |ranges| ==> InRange(s, ranges[k])
  }

  /** The mood filter as written: one boolean-mask selection per range, in table order. */
  function ApplyRanges(rows: seq<Song>, ranges: seq<Range>): seq<Song>
    decreases |ranges|
  {
    if |ranges| == 0 then rows
    else ApplyRanges(Filter(rows, (s: Song) => InRange(s, ranges[0])), ranges[1..])
  }

  lemma InAllRangesCons(s: Song, ranges: seq<Range>)
    requires 0 < |ranges|
    ensures InAllRanges(s, ranges) == (InRange(s, ranges[0]) && InAllRanges(s, ranges[1..]))
  {
    if InRange(s, ranges[0]) && InAllRanges(s, ranges[1..]) {
      forall k | 0 <= k < |ranges|
        ensures InRange(s, ranges[k])
      {
        if 0 < k {
          assert ranges[1..][k - 1] == ranges[k];
        }
      }
    }
    if InAllRanges(s, ranges) {
      forall k | 0 <= k < |ranges| - 1
        ensures InRange(s, ranges[1..][k])
      {
        assert ranges[1..][k] == ranges[k + 1];
      }
    }
  }

  /** Applying the ranges one after another keeps exactly the rows lying in all
      of them, in their original order. */
  lemma {:induction false} ApplyRangesIsConjunction(rows: seq<Song>, ranges: seq<Range>)
    ensures ApplyRanges(rows, ranges) == Filter(rows, (s: Song) => InAllRanges(s, ranges))
    decreases |ranges|
  {
    var all := (s: Song) => InAllRanges(s, ranges);
    if |ranges| == 0 {
      FilterKeepsAll(rows, all);
    } else {
      var first := (s: Song) => InRange(s, ranges[0]);
      var rest := (s: Song) => InAllRanges(s, ranges[1..]);
      ApplyRangesIsConjunction(Filter(rows, first), ranges[1..]);
      forall s: Song
        ensures all(s) == (first(s) && rest(s))
      {
        InAllRangesCons(s, ranges);
      }
      FilterFilter(rows, first, rest, all);
    }
  }

  /** A cleaned tag: no upper-case letter, and no whitespace at either end. */
  predicate CleanTag(t: string) {
    && (forall i :: 0 <= i < |t| ==> !IsUpper(t[i]))
    && (0 < |t| ==> !IsSpace(t[0]) && !IsSpace(t[|t| - 1]))
  }

  /** `[t.lower().strip() for t in selected_tags]`: one cleaned tag per
      selected tag, in order, each the lower-cased tag with its leading and
      trailing whitespace removed. */
  function CleanTags(tags: seq<string>): (r: seq<string>)
    ensures |r| == |tags|
    ensures forall k :: 0 <= k < |r| ==> CleanTag(r[k]) && TrimOf(Lower(tags[k]), r[k])
    ensures forall k :: 0 <= k < |r| ==> r[k] == Strip(Lower(tags[k]))
  {
    seq(|tags|, k requires 0 <= k < |tags| => Strip(Lower(tags[k])))
  }

  /** Cleaning is idempotent: already cleaned tags are left as they are. */
  lemma CleanTagsIdempotent(tags: seq<string>)
    ensures CleanTags(CleanTags(tags)) == CleanTags(tags)
  {
    var once := CleanTags(tags);
    var twice := CleanTags(once);
    forall k | 0 <= k < |once|
      ensures twice[k] == once[k]
    {
      CleanTagFixed(once[k]);
    }
  }

  /** A cleaned tag survives cleaning unchanged. */
  lemma CleanTagFixed(t: string)
    requires CleanTag(t)
    ensures Strip(Lower(t)) == t
  {
    LowerUnchanged(t);
    StripUnchanged(t);
  }


  /** `any(tag in x.lower() for tag in selected_tags)` on the row's unified tags. */
  predicate HasAnyTag(s: Song, cleaned: seq<string>) {
    exists k :: 0 <= k < |cleaned| && Contains(Lower(s.tagsUnified), cleaned[k])
  }

  /** The tag stage: no filtering when the tag list is missing or empty. */
  function ApplyTags(rows: seq<Song>, tags: Option<seq<string>>): seq<Song> {
    if tags.None? || |tags.value| == 0 then rows
    else
      var cleaned := CleanTags(tags.value);
      Filter(rows, (s: Song) => HasAnyTag(s, cleaned))
  }

  /** Whether a row passes the tag stage. */
  predicate TagsAccept(s: Song, tags: Option<seq<string>>) {
    tags.None? || |tags.value| == 0 || HasAnyTag(s, CleanTags(tags.value))
  }

  /** A selected tag that is blank after cleaning occurs in every row's tags,
      so such a request filters nothing out. */
  lemma BlankTagKeepsEverything(s: Song, tags: seq<string>, k: nat)
    requires k < |tags| && Strip(Lower(tags[k])) == ""
    ensures TagsAccept(s, Some(tags))
  {
    assert OccursAt(Lower(s.tagsUnified), CleanTags(tags)[k], 0);
  }

  /** `a` may precede `b` in `sort_values(by=keys, ascending=False)`: a's values
      over the keys are lexicographically at least b's. */
  predicate AtLeast(keys: seq<Feature>, a: Song, b: Song)
    decreases |keys|
  {
    if |keys| == 0 then true
    else if Value(a, keys[0]) != Value(b, keys[0]) then Value(a, keys[0]) > Value(b, keys[0])
    else AtLeast(keys[1..], a, b)
  }

  lemma {:induction false} AtLeastTotal(keys: seq<Feature>, a: Song, b: Song)
    ensures AtLeast(keys, a, b) || AtLeast(keys, b, a)
    decreases |keys|
  {
    if 0 < |keys| {
      AtLeastTotal(keys[1..], a, b);
    }
  }

  lemma {:induction false} AtLeastTransitive(keys: seq<Feature>, a: Song, b: Song, c: Song)
    requires AtLeast(keys, a, b) && AtLeast(keys, b, c)
    ensures AtLeast(keys, a, c)
    decreases |keys|
  {
    if 0 < |keys| && Value(a, keys[0]) == Value(b, keys[0]) && Value(b, keys[0]) == Value(c, keys[0]) {
      AtLeastTransitive(keys[1..], a, b, c);
    }
  }

  /** Non-increasing lexicographic order over the keys. */
  predicate SortedDesc(keys: seq<Feature>, s: seq<Song>) {
    forall i, j :: 0 <= i < j < |s| ==> AtLeast(keys, s[i], s[j])
  }

  lemma SortedCons(keys: seq<Feature>, x: Song, s: seq<Song>)
    requires SortedDesc(keys, s)
    requires forall k :: 0 <= k < |s| ==> AtLeast(keys, x, s[k])
    ensures SortedDesc(keys, [x] + s)
  {
    var r := [x] + s;
    forall i, j | 0 <= i < j < |r|
      ensures AtLeast(keys, r[i], r[j])
    {
      if 0 < i {
        assert r[i] == s[i - 1] && r[j] == s[j - 1];
      }
    }
  }

  /** Inserts `x` after every element at least as large as it. */
  function InsertDesc(keys: seq<Feature>, x: Song, s: seq<Song>): (r: seq<Song>)
    requires SortedDesc(keys, s)
    ensures SortedDesc(keys, r)
    ensures multiset(r) == multiset(s) + multiset{x}
    ensures forall y :: y in r <==> y == x || y in s
    decreases |s|
  {
    if |s| == 0 then [x]
    else if AtLeast(keys, s[0], x) then
      var rest := InsertDesc(keys, x, s[1..]);
      InsertAfterHead(keys, x, s, rest);
      [s[0]] + rest
    else
      InsertAtHead(keys, x, s);
      [x] + s
  }

  lemma InsertAfterHead(keys: seq<Feature>, x: Song, s: seq<Song>, rest: seq<Song>)
    requires 0 < |s| && SortedDesc(keys, s) && AtLeast(keys, s[0], x)
    requires SortedDesc(keys, rest)
    requires multiset(rest) == multiset(s[1..]) + multiset{x}
    requires forall y :: y in rest <==> y == x || y in s[1..]
    ensures SortedDesc(keys, [s[0]] + rest)
    ensures multiset([s[0]] + rest) == multiset(s) + multiset{x}
    ensures forall y :: y in [s[0]] + rest <==> y == x || y in s
  {
    assert s == [s[0]] + s[1..];
    forall k | 0 <= k < |rest|
      ensures AtLeast(keys, s[0], rest[k])
    {
      assert rest[k] in rest;
      if rest[k] != x {
        var j :| 0 <= j < |s| - 1 && s[1..][j] == rest[k];
        assert s[j + 1] == rest[k];
      }
    }
    SortedCons(keys, s[0], rest);
  }

  lemma InsertAtHead(keys: seq<Feature>, x: Song, s: seq<Song>)
    requires 0 < |s| && SortedDesc(keys, s) && !AtLeast(keys, s[0], x)
    ensures SortedDesc(keys, [x] + s)
  {
    AtLeastTotal(keys, s[0], x);
    forall k | 0 <= k < |s|
      ensures AtLeast(keys, x, s[k])
    {
      if 0 < k {
        AtLeastTransitive(keys, x, s[0], s[k]);
      }
    }
    SortedCons(keys, x, s);
  }

  /** `sort_values(by=keys, ascending=False)`: a permutation of `s` in
      non-increasing lexicographic order over the keys. */
  function SortDesc(keys: seq<Feature>, s: seq<Song>): (r: seq<Song>)
    ensures SortedDesc(keys, r)
    ensures multiset(r) == multiset(s)
    decreases |s|
  {
    if |s| == 0 then []
    else
      var last := |s| - 1;
      assert s == s[..last] + [s[last]];
      InsertDesc(keys, s[last], SortDesc(keys, s[..last]))
  }

  /** `sort_values(by=keys, ascending=False).head(n)`: the first `n` rows in
      non-increasing order (Python slicing for a negative `n`), none smaller
      than a row left out. */
  function TopN(keys: seq<Feature>, rows: seq<Song>, n: int): (out: seq<Song>)
    ensures |out| == HeadLength(|rows|, n)
    ensures multiset(out) <= multiset(rows)
    ensures SortedDesc(keys, out)
    ensures forall o, x :: o in out && x in multiset(rows) - multiset(out) ==> AtLeast(keys, o, x)
  {
    var sorted := SortDesc(keys, rows);
    HeadDominatesRest(keys, sorted, n);
    var out := Head(sorted, n);
    RestIsSuffix(sorted, |out|);
    assert out == sorted[..|out|];
    out
  }

  /** A bad mood is missing, empty, or not a key of the table. */
  predicate BadMood(mood: Option<string>) {
    Blank(mood) || LookupMood(mood.value).None?
  }

  /** The rows the mood route may return, as one conjunctive selection: inside
      every range of the mood and accepted by the tag stage. */
  function Eligible(catalogue: seq<Song>, m: Mood, tags: Option<seq<string>>): seq<Song> {
    Filter(catalogue, (s: Song) => InAllRanges(s, MoodRanges(m)) && TagsAccept(s, tags))
  }

  /** `recommend_mood_api`: validate the mood, filter by its ranges (404 when
      nothing is left), filter by tags (404 when nothing is left), sort
      descending over the mood's features, keep the first `top_n`. */
  function RecommendMood(catalogue: seq<Song>, req: MoodRequest): (r: Reply)
    ensures r == Problem(400, InvalidMood) <==> BadMood(req.mood)
  {
    if BadMood(req.mood) then Problem(400, InvalidMood)
    else
      var ranges := MoodRanges(LookupMood(req.mood.value).value);
      var inRange := ApplyRanges(catalogue, ranges);
      if |inRange| == 0 then Problem(404, NoSongsForMood)
      else
        var tagged := ApplyTags(inRange, req.tags);
        if |tagged| == 0 then Problem(404, NoSongsForTags)
        else Records(TopN(SortKeys(ranges), tagged, req.numRecommendations.GetOr(DefaultCount)))
  }

  /** The two filtering stages of the route keep exactly the eligible rows. */
  lemma StagesAreEligible(catalogue: seq<Song>, m: Mood, tags: Option<seq<string>>)
    ensures ApplyTags(ApplyRanges(catalogue, MoodRanges(m)), tags) == Eligible(catalogue, m, tags)
  {
    var ranges := MoodRanges(m);
    var inAll := (s: Song) => InAllRanges(s, ranges);
    var both := (s: Song) => InAllRanges(s, ranges) && TagsAccept(s, tags);
    ApplyRangesIsConjunction(catalogue, ranges);
    if tags.None? || |tags.value| == 0 {
      FilterExt(catalogue, inAll, both);
    } else {
      var cleaned := CleanTags(tags.value);
      var tagged := (s: Song) => HasAnyTag(s, cleaned);
      FilterFilter(catalogue, inAll, tagged, both);
    }
  }

  /** In a descending list, everything in the first `n` is at least as large
      as everything left out of it. */
  lemma HeadDominatesRest(keys: seq<Feature>, sorted: seq<Song>, n: int)
    requires SortedDesc(keys, sorted)
    ensures var out := Head(sorted, n);
      forall o, x :: o in out && x in multiset(sorted) - multiset(out) ==> AtLeast(keys, o, x)
  {
    var k := HeadLength(|sorted|, n);
    assert Head(sorted, n) == sorted[..k];
    RestIsSuffix(sorted, k);
    PrefixDominatesSuffix(keys, sorted, k);
  }

  /** What a prefix leaves of a sequence's multiset is the multiset of the suffix. */
  lemma RestIsSuffix<T>(s: seq<T>, k: nat)
    requires k <= |s|
    ensures multiset(s[..k]) <= multiset(s)
    ensures multiset(s) - multiset(s[..k]) == multiset(s[k..])
  {
    assert s == s[..k] + s[k..];
  }

  /** In a descending list, every element before position `k` is at least as
      large as every element from `k` on. */
  lemma PrefixDominatesSuffix(keys: seq<Feature>, sorted: seq<Song>, k: nat)
    requires SortedDesc(keys, sorted) && k <= |sorted|
    ensures forall o, x :: o in sorted[..k] && x in sorted[k..] ==> AtLeast(keys, o, x)
  {
    forall o, x | o in sorted[..k] && x in sorted[k..]
      ensures AtLeast(keys, o, x)
    {
      var i :| 0 <= i < k && sorted[..k][i] == o;
      var j :| 0 <= j < |sorted| - k && sorted[k..][j] == x;
      assert sorted[i] == o && sorted[k + j] == x;
    }
  }

  /** When the route answers 404: the range stage leaves nothing, or the range
      stage leaves something and the tag stage leaves nothing; it answers with
      rows exactly when some row is eligible. */
  lemma RecommendMoodOutcome(catalogue: seq<Song>, req: MoodRequest)
    requires !BadMood(req.mood)
    ensures var m := LookupMood(req.mood.value).value;
      var ranges := MoodRanges(m);
      var r := RecommendMood(catalogue, req);
      && (r == Problem(404, NoSongsForMood) <==> forall j :: 0 <= j < |catalogue| ==> !InAllRanges(catalogue[j], ranges))
      && (r == Problem(404, NoSongsForTags) <==>
            (exists j :: 0 <= j < |catalogue| && InAllRanges(catalogue[j], ranges)) && |Eligible(catalogue, m, req.tags)| == 0)
      && (r.Records? <==> 0 < |Eligible(catalogue, m, req.tags)|)
  {
    var m := LookupMood(req.mood.value).value;
    var ranges := MoodRanges(m);
    var inAll := (s: Song) => InAllRanges(s, ranges);
    var inRange := ApplyRanges(catalogue, ranges);
    ApplyRangesIsConjunction(catalogue, ranges);
    StagesAreEligible(catalogue, m, req.tags);
    if |inRange| == 0 {
      forall j | 0 <= j < |catalogue|
        ensures !InAllRanges(catalogue[j], ranges)
      {
        assert catalogue[j] in catalogue;
      }
    } else {
      assert inRange[0] in catalogue;
    }
  }

  /** The rows of a successful mood reply: `min(top_n, eligible)` of them for
      a non-negative `top_n` (Python slicing otherwise), all eligible, in
      non-increasing order over the mood's features in table order, and none
      smaller than an eligible row that was left out. */
  lemma RecommendMoodRows(catalogue: seq<Song>, req: MoodRequest)
    requires RecommendMood(catalogue, req).Records?
    ensures !BadMood(req.mood)
    ensures var m := LookupMood(req.mood.value).value;
      var keys := SortKeys(MoodRanges(m));
      var eligible := Eligible(catalogue, m, req.tags);
      var rows := RecommendMood(catalogue, req).rows;
      && |rows| == HeadLength(|eligible|, req.numRecommendations.GetOr(DefaultCount))
      && multiset(rows) <= multiset(eligible)
      && SortedDesc(keys, rows)
      && forall o, x :: o in rows && x in multiset(eligible) - multiset(rows) ==> AtLeast(keys, o, x)
  {
    var m := LookupMood(req.mood.value).value;
    StagesAreEligible(catalogue, m, req.tags);
  }
}

=== FILE: offline.dfy ===
/**
 The non-numeric logic of the offline content recommender (improved2.py): the
 artist tokenizer used for the artist TF-IDF, the removal of duplicate
 `(track_name, artists)` rows, the choice of the seed row, and the slicing of
 the neighbour answer. The fitted neighbour model is an oracle, as in the
 recommendation service.
 */
module Offline {
  import opened Seqs
  import opened Text

  /** The columns of a cleaned catalogue row the recommender reads. */
  datatype Track = Track(trackName: string, artists: string, trackGenre: string, popularity: int)

  // ---------------------------------------------------------------------------
  // Artist tokenizer

  /** A character `re.sub(r'[^a-zA-Z0-9\s]', '', ...)` keeps. */
  predicate ArtistChar(c: char) {
    IsAlnum(c) || IsSpace(c)
  }

  /** What cleaning leaves of any piece: only kept characters, and no
      whitespace at either end. */
  predicate Tidy(t: string) {
    && (forall i :: 0 <= i < |t| ==> ArtistChar(t[i]))
    && (0 < |t| ==> !IsSpace(t[0]) && !IsSpace(t[|t| - 1]))
  }

  /** A token `split_artists` can return: tidy and not empty. */
  predicate ArtistToken(t: string) {
    Tidy(t) && t != ""
  }

  /** One `;`-separated piece with every other character removed, then stripped. */
  function CleanArtist(piece: string): (r: string)
    ensures Tidy(r)
    ensures forall i :: 0 <= i < |r| ==> r[i] in piece
    ensures Filter(r, IsAlnum) == Filter(piece, IsAlnum)
  {
    CleanArtistKeepsAlnum(piece);
    Strip(Filter(piece, ArtistChar))
  }

  /** Cleaning loses no letter or digit of the piece and keeps their order. */
  lemma CleanArtistKeepsAlnum(piece: string)
    ensures Filter(Strip(Filter(piece, ArtistChar)), IsAlnum) == Filter(piece, IsAlnum)
  {
    FilterFilter(piece, ArtistChar, IsAlnum, IsAlnum);
    StripKeepsAlnum(Filter(piece, ArtistChar));
  }

  /** Stripping removes only whitespace, so the letters and digits stay. */
  lemma StripKeepsAlnum(s: string)
    ensures Filter(Strip(s), IsAlnum) == Filter(s, IsAlnum)
  {
    assert TrimOf(s, Strip(s));
    var a, b :| TrimmedSlice(s, a, b) && Strip(s) == s[a..b];
    TrimmedSliceKeepsAlnum(s, a, b);
  }

  /** Cutting whitespace runs off both ends keeps every letter and digit. */
  lemma TrimmedSliceKeepsAlnum(s: string, a: int, b: int)
    requires TrimmedSlice(s, a, b)
    ensures Filter(s[a..b], IsAlnum) == Filter(s, IsAlnum)
  {
    var front, middle, back := s[..a], s[a..b], s[b..];
    assert s == front + middle + back;
    NoAlnumInSpace(front);
    NoAlnumInSpace(back);
    FilterBetweenEmpty(front, middle, back, IsAlnum);
  }

  /** Filtering a sequence whose outer parts keep nothing keeps only the middle's elements. */
  lemma FilterBetweenEmpty<T(!new)>(front: seq<T>, middle: seq<T>, back: seq<T>, p: T -> bool)
    requires Filter(front, p) == [] && Filter(back, p) == []
    ensures Filter(front + middle + back, p) == Filter(middle, p)
  {
    FilterConcat(front + middle, back, p);
    FilterConcat(front, middle, p);
  }

  /** A whitespace run holds no letter or digit. */
  lemma NoAlnumInSpace(t: string)
    requires forall i :: 0 <= i < |t| ==> IsSpace(t[i])
    ensures Filter(t, IsAlnum) == []
  {
  }

  /** The cleaned `;`-separated pieces of `s`, in order, empty ones included. */
  function CleanPieces(s: string): (r: seq<string>)
    ensures |r| == |Split(s, ';')|
    ensures forall k :: 0 <= k < |r| ==> r[k] == CleanArtist(Split(s, ';')[k])
    ensures forall t :: t in r ==> Tidy(t)
  {
    Map(Split(s, ';'), CleanArtist)
  }

  predicate NonEmpty(t: string) {
    t != ""
  }

  /** `split_artists`: None gives no tokens; otherwise the cleaned pieces of the
      `;`-split, in order, with the empty ones dropped. */
  function SplitArtists(artistString: Option<string>): (r: seq<string>)
    ensures artistString.None? ==> r == []
    ensures artistString.Some? ==> |r| <= Count(artistString.value, ';') + 1
    ensures forall k :: 0 <= k < |r| ==> ArtistToken(r[k])
    ensures artistString.Some? ==> forall t :: t in r <==> t != "" && t in CleanPieces(artistString.value)
  {
    match artistString
    case None => []
    case Some(s) =>
      var r := Filter(CleanPieces(s), NonEmpty);
      TidyTokens(CleanPieces(s));
      r
  }

  /** Dropping the empty strings from tidy strings leaves artist tokens. */
  lemma TidyTokens(cleaned: seq<string>)
    requires forall t :: t in cleaned ==> Tidy(t)
    ensures forall k :: 0 <= k < |Filter(cleaned, NonEmpty)| ==> ArtistToken(Filter(cleaned, NonEmpty)[k])
  {
    var r := Filter(cleaned, NonEmpty);
    forall k | 0 <= k < |r|
      ensures ArtistToken(r[k])
    {
      assert r[k] in r;
    }
  }

  /** A token of the tokenizer survives cleaning unchanged. */
  lemma CleanToken(t: string)
    requires Tidy(t)
    ensures CleanArtist(t) == t
  {
    FilterKeepsAll(t, ArtistChar);
    StripUnchanged(t);
  }

  /** The tokenizer is idempotent: re-joining its tokens with `;` and
      tokenizing again gives the same tokens. */
  lemma SplitArtistsRejoin(s: string)
    ensures var tokens := SplitArtists(Some(s));
      SplitArtists(Some(Join(tokens, ';'))) == tokens
  {
    var tokens := SplitArtists(Some(s));
    if |tokens| == 0 {
      NoTokensInEmpty();
    } else {
      RejoinTokens(tokens);
    }
  }

  /** The tokens keep the order of the artists: the tokens of `x;y` are those of
      `x` followed by those of `y`. */
  lemma SplitArtistsConcat(x: string, y: string)
    ensures SplitArtists(Some(x + [';'] + y)) == SplitArtists(Some(x)) + SplitArtists(Some(y))
  {
    CleanPiecesConcat(x, y);
    FilterConcat(CleanPieces(x), CleanPieces(y), NonEmpty);
  }

  lemma CleanPiecesConcat(x: string, y: string)
    ensures CleanPieces(x + [';'] + y) == CleanPieces(x) + CleanPieces(y)
  {
    SplitConcat(x, y, ';');
    MapConcat(Split(x, ';'), Split(y, ';'), CleanArtist);
  }

  lemma NoTokensInEmpty()
    ensures SplitArtists(Some("")) == []
  {
    assert Split("", ';') == [""];
    assert CleanArtist("") == "";
    assert CleanPieces("") == [""];
  }

  lemma NoSemicolonInToken(t: string)
    requires Tidy(t)
    ensures ';' !in t
  {
  }

  /** Tokenizing the `;`-join of at least one artist token gives them back. */
  lemma RejoinTokens(tokens: seq<string>)
    requires 0 < |tokens|
    requires forall k :: 0 <= k < |tokens| ==> ArtistToken(tokens[k])
    ensures SplitArtists(Some(Join(tokens, ';'))) == tokens
  {
    forall k | 0 <= k < |tokens|
      ensures ';' !in tokens[k]
    {
      NoSemicolonInToken(tokens[k]);
    }
    var joined := Join(tokens, ';');
    SplitJoin(tokens, ';');
    var cleaned := CleanPieces(joined);
    forall k | 0 <= k < |tokens|
      ensures cleaned[k] == tokens[k]
    {
      CleanToken(tokens[k]);
    }
    assert cleaned == tokens;
    FilterKeepsAll(tokens, NonEmpty);
  }

  // ---------------------------------------------------------------------------
  // Removal of duplicate rows

  /** The subset `['track_name', 'artists']` that identifies a duplicate. */
  datatype Key = Key(trackName: string, artists: string)

  function KeyOf(t: Track): Key {
    Key(t.trackName, t.artists)
  }

  /** Row `i` is the first with its key: `drop_duplicates` keeps exactly these. */
  predicate FirstOfKey(rows: seq<Track>, i: nat)
    requires i < |rows|
  {
    forall j :: 0 <= j < i ==> KeyOf(rows[j]) != KeyOf(rows[i])
  }

  /** `df.drop_duplicates(subset=['track_name', 'artists'])` followed by
      `reset_index(drop=True)`: the rows that are the first of their key, in
      their original order, renumbered from 0. `kept` lists their original
      positions. */
  method DropDuplicates(rows: seq<Track>) returns (out: seq<Track>, kept: seq<nat>)
    ensures |out| == |kept|
    ensures forall k :: 0 <= k < |kept| ==> kept[k] < |rows| && out[k] == rows[kept[k]]
    ensures forall a, b :: 0 <= a < b < |kept| ==> kept[a] < kept[b]
    ensures forall i :: 0 <= i < |rows| ==> (i in kept <==> FirstOfKey(rows, i))
    ensures forall a, b :: 0 <= a < b < |out| ==> KeyOf(out[a]) != KeyOf(out[b])
    ensures forall j :: 0 <= j < |rows| ==> KeptBy(rows, out, kept, j)
  {
    var seen: set<Key> := {};
    out, kept := [], [];
    var i := 0;
    while i < |rows|
      invariant 0 <= i <= |rows|
      invariant |out| == |kept|
      invariant forall k :: 0 <= k < |kept| ==> kept[k] < i && out[k] == rows[kept[k]]
      invariant forall a, b :: 0 <= a < b < |kept| ==> kept[a] < kept[b]
      invariant forall j :: 0 <= j < i ==> (j in kept <==> FirstOfKey(rows, j))
      invariant forall k :: 0 <= k < |kept| ==> FirstOfKey(rows, kept[k])
      invariant forall x :: x in seen <==> exists j :: 0 <= j < i && KeyOf(rows[j]) == x
    {
      var key := KeyOf(rows[i]);
      if key !in seen {
        out, kept := out + [rows[i]], kept + [i];
        seen := seen + {key};
      }
      i := i + 1;
    }
    KeptKeysDistinct(rows, out, kept);
    KeptKeysCover(rows, out, kept);
  }

  /** Rows that are each the first of their key have pairwise different keys. */
  lemma KeptKeysDistinct(rows: seq<Track>, out: seq<Track>, kept: seq<nat>)
    requires |out| == |kept|
    requires forall k :: 0 <= k < |kept| ==> kept[k] < |rows| && out[k] == rows[kept[k]]
    requires forall a, b :: 0 <= a < b < |kept| ==> kept[a] < kept[b]
    requires forall k :: 0 <= k < |kept| ==> FirstOfKey(rows, kept[k])
    ensures forall a, b :: 0 <= a < b < |out| ==> KeyOf(out[a]) != KeyOf(out[b])
  {
    forall a, b | 0 <= a < b < |out|
      ensures KeyOf(out[a]) != KeyOf(out[b])
    {
      assert FirstOfKey(rows, kept[b]) && kept[a] < kept[b];
      assert KeyOf(rows[kept[a]]) != KeyOf(rows[kept[b]]);
    }
  }

  /** Row `j`'s key is the key of an output row taken from position `j` or earlier. */
  predicate KeptBy(rows: seq<Track>, out: seq<Track>, kept: seq<nat>, j: int)
    requires 0 <= j < |rows|
    requires |out| == |kept|
  {
    exists k :: 0 <= k < |out| && kept[k] <= j && KeyOf(out[k]) == KeyOf(rows[j])
  }

  /** When every first-of-key row is kept, every row's key is kept, no later than the row. */
  lemma KeptKeysCover(rows: seq<Track>, out: seq<Track>, kept: seq<nat>)
    requires |out| == |kept|
    requires forall k :: 0 <= k < |kept| ==> kept[k] < |rows| && out[k] == rows[kept[k]]
    requires forall j :: 0 <= j < |rows| ==> (j in kept <==> FirstOfKey(rows, j))
    ensures forall j :: 0 <= j < |rows| ==> KeptBy(rows, out, kept, j)
  {
    forall j | 0 <= j < |rows|
      ensures KeptBy(rows, out, kept, j)
    {
      var f := FirstWithKey(rows, j);
      assert f in kept;
      var k :| 0 <= k < |kept| && kept[k] == f;
      assert 0 <= k < |out| && kept[k] <= j && KeyOf(out[k]) == KeyOf(rows[j]);
      assert KeptBy(rows, out, kept, j);
    }
  }

  /** Every row has a first row with its key, at or before it. */
  lemma {:induction false} FirstWithKey(rows: seq<Track>, i: nat) returns (f: nat)
    requires i < |rows|
    ensures f <= i && FirstOfKey(rows, f) && KeyOf(rows[f]) == KeyOf(rows[i])
    decreases i
  {
    if FirstOfKey(rows, i) {
      f := i;
    } else {
      var j :| 0 <= j < i && KeyOf(rows[j]) == KeyOf(rows[i]);
      f := FirstWithKey(rows, j);
    }
  }

  // ---------------------------------------------------------------------------
  // Seed selection

  /** A row matching the query: the names are equal ignoring case and the
      lower-cased artists contain the lower-cased artist query. */
  predicate Candidate(t: Track, trackName: string, artistName: string) {
    Lower(t.trackName) == Lower(trackName) && Contains(Lower(t.artists), Lower(artistName))
  }

  /** Row `s` is what `seed_songs.loc[seed_songs['popularity'].idxmax()]` picks:
      a candidate whose popularity no candidate exceeds, and the earliest such. */
  predicate BestSeed(rows: seq<Track>, trackName: string, artistName: string, s: nat) {
    && s < |rows|
    && Candidate(rows[s], trackName, artistName)
    && (forall i :: 0 <= i < |rows| && Candidate(rows[i], trackName, artistName) ==> rows[i].popularity <= rows[s].popularity)
    && (forall i :: 0 <= i < s && Candidate(rows[i], trackName, artistName) ==> rows[i].popularity < rows[s].popularity)
  }

  /** At most one row is the best seed. */
  lemma BestSeedUnique(rows: seq<Track>, trackName: string, artistName: string, s: nat, t: nat)
    requires BestSeed(rows, trackName, artistName, s) && BestSeed(rows, trackName, artistName, t)
    ensures s == t
  {
  }

  /** The seed lookup of `get_recommendations`: none when no row is a
      candidate, otherwise the most popular candidate, the earliest on a tie
      (a single candidate is trivially that one). */
  method SelectSeed(rows: seq<Track>, trackName: string, artistName: string) returns (seed: Option<nat>)
    ensures seed.None? <==> forall i :: 0 <= i < |rows| ==> !Candidate(rows[i], trackName, artistName)
    ensures seed.Some? ==> BestSeed(rows, trackName, artistName, seed.value)
  {
    seed := None;
    var i := 0;
    while i < |rows|
      invariant 0 <= i <= |rows|
      invariant seed.None? <==> forall j :: 0 <= j < i ==> !Candidate(rows[j], trackName, artistName)
      invariant seed.Some? ==> seed.value < i && BestSeed(rows[..i], trackName, artistName, seed.value)
    {
      if Candidate(rows[i], trackName, artistName) {
        if seed.None? || rows[seed.value].popularity < rows[i].popularity {
          seed := Some(i);
        }
      }
      assert rows[..i + 1][..i] == rows[..i];
      i := i + 1;
    }
    assert rows[..i] == rows;
  }

  // ---------------------------------------------------------------------------
  // Recommendation

  /** What `get_recommendations` ends with: an empty frame when the song is not
      found, an exception out of the neighbour query or the row lookup, or the
      recommended rows. */
  datatype Outcome = NotFound | Raised | Recommended(rows: seq<Track>)

  /** `rows` is the answer for seed `s`: the neighbour query for `n + 1`
      succeeded and `rows` are the rows at its positions after the first. */
  predicate RecommendedFrom(rows: seq<Track>, trackName: string, artistName: string,
                            knn: (nat, int) -> Neighbours, n: int, s: nat, out: seq<Track>) {
    && BestSeed(rows, trackName, artistName, s)
    && var answer := knn(s, n + 1);
    && answer.Neighbours?
    && |out| == |DropFirst(answer.positions)|
    && (forall k :: 0 <= k < |out| ==>
          ValidPosition(answer.positions[k + 1], |rows|) &&
          out[k] == rows[Resolve(answer.positions[k + 1], |rows|)])
    && (0 < |answer.positions| <= n + 1 ==> |out| <= n)
  }

  /** For seed `s`, the neighbour query failed or named an out-of-range
      position after the first (the first position is never looked up). */
  predicate RaisedFrom(rows: seq<Track>, trackName: string, artistName: string,
                       knn: (nat, int) -> Neighbours, n: int, s: nat) {
    && BestSeed(rows, trackName, artistName, s)
    && (knn(s, n + 1).SearchFailed? || ILoc(rows, DropFirst(knn(s, n + 1).positions)).None?)
  }

  /** `get_recommendations`: select the seed, ask for `n + 1` neighbours of it,
      drop the first answer and look the rest up by position. */
  method GetRecommendations(rows: seq<Track>, trackName: string, artistName: string,
                            knn: (nat, int) -> Neighbours, n: int) returns (o: Outcome)
    ensures o.NotFound? <==> forall i :: 0 <= i < |rows| ==> !Candidate(rows[i], trackName, artistName)
    ensures o.Recommended? ==> exists s :: RecommendedFrom(rows, trackName, artistName, knn, n, s, o.rows)
    ensures o.Raised? ==> exists s :: RaisedFrom(rows, trackName, artistName, knn, n, s)
  {
    var seed := SelectSeed(rows, trackName, artistName);
    match seed
    case None =>
      o := NotFound;
    case Some(s) =>
      match knn(s, n + 1)
      case SearchFailed =>
        assert RaisedFrom(rows, trackName, artistName, knn, n, s);
        o := Raised;
      case Neighbours(positions) =>
        match ILoc(rows, DropFirst(positions))
        case None =>
          assert RaisedFrom(rows, trackName, artistName, knn, n, s);
          o := Raised;
        case Some(found) =>
          assert forall k :: 0 <= k < |found| ==> DropFirst(positions)[k] == positions[k + 1];
          assert RecommendedFrom(rows, trackName, artistName, knn, n, s, found);
          o := Recommended(found);
  }
}

=== FILE: seqs.dfy ===
/**
 Sequence helpers shared by the Python and JavaScript models: an Option type,
 and the slicing and positional-indexing rules of Python lists and pandas
 frames (`s[:n]`, `s[1:]`, `df.iloc[ids]`).
 */
module Seqs {

  datatype Option<+T> = None | Some(value: T) {

    /** The held value, or `default` when there is none (Python's `dict.get(k, default)`). */
    function GetOr(default: T): T {
      match this
      case Some(v) => v
      case None => default
    }
  }

  /** A request field that is false in a condition: missing, or the empty
      string (Python and JavaScript agree on this for strings). */
  predicate Blank(field: Option<string>) {
    field.None? || field.value == ""
  }

  /** Length of Python's `s[:n]` on a sequence of length `len`. */
  function HeadLength(len: nat, n: int): (k: nat)
    ensures k <= len
    ensures 0 <= n ==> k == (if n <= len then n else len)
    ensures n < 0 ==> k == (if -n <= len then len + n else 0)
  {
    if 0 <= n then (if n <= len then n else len)
    else if -n <= len then len + n
    else 0
  }

  /** What a fitted nearest-neighbour model answers for a seed position and a
      neighbour count: catalogue positions, nearest first, or a failure. */
  datatype Neighbours = Neighbours(positions: seq<int>) | SearchFailed

  /** Python's `s[:n]` (pandas `head(n)`): a negative `n` drops `-n` elements from the end. */
  function Head<T>(s: seq<T>, n: int): (r: seq<T>)
    ensures |r| == HeadLength(|s|, n)
    ensures r <= s
  {
    s[..HeadLength(|s|, n)]
  }

  /** Python's `s[1:]`: everything after position 0; empty when `s` is empty. */
  function DropFirst<T>(s: seq<T>): (r: seq<T>)
    ensures |s| == 0 ==> r == []
    ensures 0 < |s| ==> |r| == |s| - 1 && forall k :: 0 <= k < |r| ==> r[k] == s[k + 1]
  {
    if |s| == 0 then [] else s[1..]
  }

  /** A position accepted by Python/pandas positional indexing on `len` elements. */
  predicate ValidPosition(j: int, len: nat) {
    -(len as int) <= j < len
  }

  /** The element a valid position designates: negative positions count from the end. */
  function Resolve(j: int, len: nat): (p: nat)
    requires ValidPosition(j, len)
    ensures p < len
    ensures 0 <= j ==> p == j
    ensures j < 0 ==> p + (-j) == len
  {
    if 0 <= j then j else len + j
  }

  /** pandas `df.iloc[ids]`: the rows at the given positions, in order, or None
      (an IndexError) when some position is out of bounds. */
  function ILoc<T>(rows: seq<T>, ids: seq<int>): (r: Option<seq<T>>)
    ensures r.Some? <==> forall k :: 0 <= k < |ids| ==> ValidPosition(ids[k], |rows|)
    ensures r.Some? ==> |r.value| == |ids|
    ensures r.Some? ==> forall k :: 0 <= k < |ids| ==> r.value[k] == rows[Resolve(ids[k], |rows|)]
  {
    if |ids| == 0 then Some([])
    else if !ValidPosition(ids[0], |rows|) then None
    else
      match ILoc(rows, ids[1..])
      case None => None
      case Some(rest) => Some([rows[Resolve(ids[0], |rows|)]] + rest)
  }

  /** `f` applied to every element of `s`, in order (a list comprehension). */
  function Map<A, B>(s: seq<A>, f: A -> B): (r: seq<B>)
    ensures |r| == |s|
    ensures forall k :: 0 <= k < |s| ==> r[k] == f(s[k])
  {
    seq(|s|, k requires 0 <= k < |s| => f(s[k]))
  }

  /** Mapping a concatenation maps each part. */
  lemma MapConcat<A, B>(a: seq<A>, b: seq<A>, f: A -> B)
    ensures Map(a + b, f) == Map(a, f) + Map(b, f)
  {
  }

  /** The elements of `s` satisfying `p`, in order (a boolean-mask selection
      `df[mask]`): each kept element is unchanged and keeps its multiplicity. */
  function Filter<T(!new)>(s: seq<T>, p: T -> bool): (r: seq<T>)
    ensures |r| <= |s|
    ensures forall k :: 0 <= k < |r| ==> p(r[k])
    ensures forall x :: x in r <==> x in s && p(x)
    ensures forall x {:trigger multiset(r)[x]} :: multiset(r)[x] == if p(x) then multiset(s)[x] else 0
    decreases |s|
  {
    if |s| == 0 then []
    else
      var rest := Filter(s[1..], p);
      assert s == [s[0]] + s[1..];
      if p(s[0]) then [s[0]] + rest else rest
  }

  /** Filtering keeps the input order: the selection of a concatenation is the
      selection of the first part followed by that of the second. */
  lemma {:induction false} FilterConcat<T(!new)>(a: seq<T>, b: seq<T>, p: T -> bool)
    ensures Filter(a + b, p) == Filter(a, p) + Filter(b, p)
    decreases |a|
  {
    if |a| == 0 {
      assert a + b == b;
    } else {
      FilterConcat(a[1..], b, p);
      assert (a + b)[0] == a[0] && (a + b)[1..] == a[1..] + b;
    }
  }

  /** Filtering with two predicates that agree everywhere gives the same result. */
  lemma {:induction false} FilterExt<T(!new)>(s: seq<T>, p: T -> bool, q: T -> bool)
    requires forall x :: p(x) == q(x)
    ensures Filter(s, p) == Filter(s, q)
    decreases |s|
  {
    if |s| != 0 {
      FilterExt(s[1..], p, q);
    }
  }

  /** Two filters in a row keep exactly what one filter by the conjunction keeps. */
  lemma {:induction false} FilterFilter<T(!new)>(s: seq<T>, p: T -> bool, q: T -> bool, pq: T -> bool)
    requires forall x :: pq(x) == (p(x) && q(x))
    ensures Filter(Filter(s, p), q) == Filter(s, pq)
    decreases |s|
  {
    if |s| != 0 {
      FilterFilter(s[1..], p, q, pq);
      if p(s[0]) {
        assert Filter(s, p) == [s[0]] + Filter(s[1..], p);
        assert (Filter(s, p))[1..] == Filter(s[1..], p);
      }
    }
  }

  /** Filtering by a predicate every element satisfies changes nothing. */
  lemma {:induction false} FilterKeepsAll<T(!new)>(s: seq<T>, p: T -> bool)
    requires forall k :: 0 <= k < |s| ==> p(s[k])
    ensures Filter(s, p) == s
    decreases |s|
  {
    if |s| != 0 {
      FilterKeepsAll(s[1..], p);
      assert s == [s[0]] + s[1..];
    }
  }
}

=== FILE: tags.dfy ===
/**
 Tag normalisation done while preparing the catalogue (`unify_tags` and the
 `text_features` column in ml_service/prepare_models.py).

 A raw tag string such as `"Hip_Hop, alt ,rock"` is split on commas; each
 piece is stripped, lower-cased and has `_` replaced by a space (in that
 order), then mapped through a fixed synonym table; the distinct results are
 sorted and joined with commas, giving `"alternative,hip-hop,rock"`.
 */
module Tags {
  import opened Seqs
  import opened Text

  /** The synonym table `tag_groups`: a normalised tag that is a key is replaced by its value. */
  const TagGroups: map<string, string> := map[
    "alt rock" := "alternative rock",
    "alt" := "alternative",
    "electro" := "electronic",
    "electronica" := "electronic",
    "hip hop" := "hip-hop",
    "r&b" := "rnb",
    "pop rock" := "pop-rock",
    "hard rock" := "hard-rock",
    "progressive metal" := "progressive metal",
    "classic rock" := "classic rock",
    "death" := "death metal",
    "prog" := "progressive"
  ]

  /** A tag as it may appear in the unified column: no underscore, no comma and
      no upper-case ASCII letter. */
  predicate WellFormedTag(t: string) {
    '_' !in t && ',' !in t && forall i :: 0 <= i < |t| ==> !IsUpper(t[i])
  }

  lemma TagGroupsWellFormed()
    ensures forall k :: k in TagGroups ==> WellFormedTag(TagGroups[k])
  {
    RockTagsWellFormed();
    GenreTagsWellFormed();
    MetalTagsWellFormed();
  }

  lemma RockTagsWellFormed()
    ensures WellFormedTag("alternative rock") && WellFormedTag("pop-rock")
    ensures WellFormedTag("hard-rock") && WellFormedTag("classic rock")
  {
  }

  lemma GenreTagsWellFormed()
    ensures WellFormedTag("alternative") && WellFormedTag("electronic")
    ensures WellFormedTag("hip-hop") && WellFormedTag("rnb")
  {
  }

  lemma MetalTagsWellFormed()
    ensures WellFormedTag("progressive metal") && WellFormedTag("death metal") && WellFormedTag("progressive")
  {
  }

  /** One comma-separated piece after `t.strip().lower().replace('_', ' ')`. */
  function Normalise(piece: string): (r: string)
    ensures '_' !in r
    ensures forall i :: 0 <= i < |r| ==> !IsUpper(r[i])
    ensures ',' !in piece ==> ',' !in r
    ensures |r| == |Strip(piece)|
    ensures forall i :: 0 <= i < |r| ==>
      r[i] == (if Strip(piece)[i] == '_' then ' ' else LowerChar(Strip(piece)[i]))
  {
    var stripped := Strip(piece);
    var lowered := Lower(stripped);
    assert forall i :: 0 <= i < |lowered| ==> lowered[i] == ',' ==> stripped[i] == ',';
    ReplaceChar(lowered, '_', ' ')
  }

  /** `tag_groups.get(t, t)`. */
  function MapTag(t: string): string {
    if t in TagGroups then TagGroups[t] else t
  }

  /** A piece after normalisation and synonym mapping. */
  function Canonical(piece: string): (r: string)
    ensures ',' !in piece ==> WellFormedTag(r)
  {
    TagGroupsWellFormed();
    MapTag(Normalise(piece))
  }

  /** The canonical tag of every comma-separated piece of `s`, in input order. */
  function CanonicalPieces(s: string): (r: seq<string>)
    ensures |r| == |Split(s, ',')|
    ensures forall k :: 0 <= k < |r| ==> r[k] == Canonical(Split(s, ',')[k])
    ensures forall k :: 0 <= k < |r| ==> WellFormedTag(r[k])
  {
    var pieces := Split(s, ',');
    seq(|pieces|, k requires 0 <= k < |pieces| => Canonical(pieces[k]))
  }

  /** Sorted without duplicates, in Python's string order. */
  predicate StrictlyAscending(l: seq<string>) {
    forall i, j :: 0 <= i < j < |l| ==> LexLess(l[i], l[j])
  }

  lemma AscendingCons(x: string, l: seq<string>)
    requires StrictlyAscending(l)
    requires 0 < |l| ==> LexLess(x, l[0])
    ensures StrictlyAscending([x] + l)
  {
    var r := [x] + l;
    forall i, j | 0 <= i < j < |r|
      ensures LexLess(r[i], r[j])
    {
      if i == 0 && 1 < j {
        LexLessTransitive(x, l[0], l[j - 1]);
      }
    }
  }

  /** Adds `x` to a strictly ascending list, keeping it strictly ascending. */
  function InsertUnique(x: string, l: seq<string>): (r: seq<string>)
    requires StrictlyAscending(l)
    ensures StrictlyAscending(r)
    ensures forall y :: y in r <==> y == x || y in l
    decreases |l|
  {
    if |l| == 0 then [x]
    else if x == l[0] then l
    else if LexLess(x, l[0]) then
      AscendingCons(x, l);
      [x] + l
    else
      LexLessTotal(x, l[0]);
      var rest := InsertUnique(x, l[1..]);
      AscendingCons(l[0], rest);
      [l[0]] + rest
  }

  /** Python's `sorted(set(xs))`: the distinct elements of `xs`, ascending. */
  function SortedSet(xs: seq<string>): (r: seq<string>)
    ensures StrictlyAscending(r)
    ensures forall y :: y in r <==> y in xs
    decreases |xs|
  {
    if |xs| == 0 then []
    else InsertUnique(xs[0], SortedSet(xs[1..]))
  }

  /** There is only one strictly ascending list of a given set of strings, so
      `SortedSet` is `sorted(set(...))` whatever algorithm computes it. */
  lemma AscendingUnique(a: seq<string>, b: seq<string>)
    requires StrictlyAscending(a) && StrictlyAscending(b)
    requires forall y :: y in a <==> y in b
    ensures a == b
  {
    AscendingUniqueAt(a, b);
  }

  lemma {:induction false} AscendingUniqueAt(a: seq<string>, b: seq<string>)
    requires StrictlyAscending(a) && StrictlyAscending(b)
    requires forall i :: 0 <= i < |a| ==> a[i] in b
    requires forall j :: 0 <= j < |b| ==> b[j] in a
    ensures a == b
    decreases |a|
  {
    if |a| == 0 {
      if 0 < |b| {
        assert false;
      }
    } else {
      AscendingHeads(a, b);
      AscendingTailMembers(a, b);
      AscendingTailMembers(b, a);
      AscendingTail(a);
      AscendingTail(b);
      AscendingUniqueAt(a[1..], b[1..]);
      SameHeadSameTail(a, b);
    }
  }

  lemma SameHeadSameTail<T>(a: seq<T>, b: seq<T>)
    requires 0 < |a| && 0 < |b| && a[0] == b[0] && a[1..] == b[1..]
    ensures a == b
  {
    assert a == [a[0]] + a[1..];
    assert b == [b[0]] + b[1..];
  }

  /** Two strictly ascending lists with the same members start alike. */
  lemma AscendingHeads(a: seq<string>, b: seq<string>)
    requires StrictlyAscending(a) && StrictlyAscending(b) && 0 < |a|
    requires forall i :: 0 <= i < |a| ==> a[i] in b
    requires forall j :: 0 <= j < |b| ==> b[j] in a
    ensures 0 < |b| && a[0] == b[0]
  {
    assert a[0] in b;
    if a[0] != b[0] {
      var i :| 0 <= i < |a| && a[i] == b[0];
      var j :| 0 <= j < |b| && b[j] == a[0];
      assert LexLess(a[0], b[0]) && LexLess(b[0], a[0]);
      LexLessAsymmetric(a[0], b[0]);
    }
  }

  /** With equal heads, every later member of `a` is a later member of `b`. */
  lemma AscendingTailMembers(a: seq<string>, b: seq<string>)
    requires StrictlyAscending(b) && 0 < |a| && 0 < |b| && a[0] == b[0]
    requires StrictlyAscending(a)
    requires forall i :: 0 <= i < |a| ==> a[i] in b
    ensures forall i :: 0 <= i < |a| - 1 ==> a[1..][i] in b[1..]
  {
    forall i | 0 <= i < |a| - 1
      ensures a[1..][i] in b[1..]
    {
      var x := a[i + 1];
      assert LexLess(a[0], x);
      LexLessIrreflexive(x);
      var j :| 0 <= j < |b| && b[j] == x;
      assert j != 0;
      assert b[1..][j - 1] == x;
    }
  }

  lemma AscendingTail(a: seq<string>)
    requires StrictlyAscending(a) && 0 < |a|
    ensures StrictlyAscending(a[1..])
  {
    forall i, j | 0 <= i < j < |a| - 1
      ensures LexLess(a[1..][i], a[1..][j])
    {
      assert a[1..][i] == a[i + 1] && a[1..][j] == a[j + 1];
    }
  }

  /** `unify_tags`: a missing tag string (NaN) gives the empty string; otherwise
      the distinct canonical tags of its comma-separated pieces, sorted and
      joined with commas. */
  function UnifyTags(tagString: Option<string>): (r: string)
    ensures tagString.None? ==> r == ""
  {
    match tagString
    case None => ""
    case Some(s) => Join(SortedSet(CanonicalPieces(s)), ',')
  }

  /** What the unified string holds: splitting it on commas gives strictly
      ascending, well-formed tags, and they are exactly the canonical tags of
      the input's pieces. */
  lemma UnifyTagsContents(s: string)
    ensures var out := Split(UnifyTags(Some(s)), ',');
      && StrictlyAscending(out)
      && (forall t :: t in out <==> exists p :: p in Split(s, ',') && Canonical(p) == t)
      && (forall k :: 0 <= k < |out| ==> WellFormedTag(out[k]))
  {
    var canon := CanonicalPieces(s);
    var sorted := SortedSet(canon);
    assert 0 < |canon|;
    assert canon[0] in sorted;
    forall k | 0 <= k < |sorted|
      ensures WellFormedTag(sorted[k])
    {
      assert sorted[k] in canon;
    }
    SplitJoin(sorted, ',');
    var pieces := Split(s, ',');
    forall t
      ensures t in sorted <==> exists p :: p in pieces && Canonical(p) == t
    {
      if t in sorted {
        var k :| 0 <= k < |canon| && canon[k] == t;
        assert pieces[k] in pieces && Canonical(pieces[k]) == t;
      }
      if exists p :: p in pieces && Canonical(p) == t {
        var p :| p in pieces && Canonical(p) == t;
        var k :| 0 <= k < |pieces| && pieces[k] == p;
        assert canon[k] == t;
      }
    }
  }

  /** The unified string is the comma-join of the one strictly ascending list
      whose elements are the canonical tags, i.e. `",".join(sorted(set(mapped)))`. */
  lemma UnifyTagsIsSortedJoin(s: string, l: seq<string>)
    requires StrictlyAscending(l)
    requires forall t :: t in l <==> exists p :: p in Split(s, ',') && Canonical(p) == t
    ensures UnifyTags(Some(s)) == Join(l, ',')
  {
    var canon := CanonicalPieces(s);
    var pieces := Split(s, ',');
    forall t
      ensures t in SortedSet(canon) <==> t in l
    {
      if t in canon {
        var k :| 0 <= k < |canon| && canon[k] == t;
        assert pieces[k] in pieces && Canonical(pieces[k]) == t;
      }
      if t in l {
        var p :| p in pieces && Canonical(p) == t;
        var k :| 0 <= k < |pieces| && pieces[k] == p;
        assert canon[k] == t;
      }
    }
    AscendingUnique(SortedSet(canon), l);
  }

  /** Normalisation is not idempotent: stripping happens before `_` becomes a
      space, so `"rock_"` unifies to `"rock "`, which unifies again to `"rock"`. */
  lemma UnifyTagsNotIdempotent()
    ensures UnifyTags(Some("rock_")) == "rock "
    ensures UnifyTags(Some(UnifyTags(Some("rock_")))) == "rock"
    ensures UnifyTags(Some(UnifyTags(Some("rock_")))) != UnifyTags(Some("rock_"))
  {
    var t := "rock";
    assert "rock_" == t + ['_'] && "rock " == t + [' '];
    UnifyTrailingUnderscore(t);
  }

  /** A plain word: not empty, and without whitespace, upper case, `_` or comma. */
  predicate PlainWord(t: string) {
    && 0 < |t|
    && forall i :: 0 <= i < |t| ==> !IsSpace(t[i]) && !IsUpper(t[i]) && t[i] != '_' && t[i] != ','
  }

  /** A plain word outside the synonym table with `_` appended unifies to the
      word followed by a space, and that unifies to the word itself. */
  lemma UnifyTrailingUnderscore(t: string)
    requires PlainWord(t) && t !in TagGroups && t + [' '] !in TagGroups
    ensures UnifyTags(Some(t + ['_'])) == t + [' ']
    ensures UnifyTags(Some(t + [' '])) == t
  {
    NormaliseTrailingUnderscore(t);
    NormaliseTrailingSpace(t);
    UnifySingle(t + ['_'], t + [' ']);
    UnifySingle(t + [' '], t);
  }

  /** A string without commas whose canonical form is `c` unifies to `c`. */
  lemma UnifySingle(s: string, c: string)
    requires ',' !in s
    requires Canonical(s) == c
    ensures UnifyTags(Some(s)) == c
  {
    SplitNoSeparator(s, ',');
    assert CanonicalPieces(s) == [c];
    assert SortedSet([c]) == [c];
  }

  lemma NormaliseTrailingUnderscore(t: string)
    requires PlainWord(t)
    ensures Normalise(t + ['_']) == t + [' ']
  {
    var s := t + ['_'];
    assert s[0] == t[0] && s[|t|] == '_';
    StripUnchanged(s);
    LowerUnchanged(s);
    var r := ReplaceChar(s, '_', ' ');
    assert forall i :: 0 <= i < |t| ==> r[i] == t[i];
  }

  lemma NormaliseTrailingSpace(t: string)
    requires PlainWord(t)
    ensures Normalise(t + [' ']) == t
  {
    StripTrailingSpace(t, ' ');
    LowerUnchanged(t);
    ReplaceAbsent(t, '_', ' ');
  }

  /** `n` copies of `s` one after another (Python's `s * n`). */
  function Repeat(s: string, n: nat): (r: string)
    ensures |r| == n * |s|
  {
    if n == 0 then "" else s + Repeat(s, n - 1)
  }

  /** The `text_features` column: the unified tags followed by a space, three
      times over, then the artist; a missing unified value counts as empty.
      The tags therefore occupy the three slots before each separating space
      and the artist is the exact suffix. */
  function TextFeatures(tagsUnified: Option<string>, artist: string): (r: string)
    ensures var t := tagsUnified.GetOr("");
      var w := |t| + 1;
      && |r| == 3 * w + |artist|
      && r[..|t|] == t && r[|t|] == ' '
      && r[w..w + |t|] == t && r[w + |t|] == ' '
      && r[2 * w..2 * w + |t|] == t && r[2 * w + |t|] == ' '
      && r[3 * w..] == artist
  {
    var t := tagsUnified.GetOr("");
    var r := Repeat(t + " ", 3) + artist;
    var u := t + " ";
    assert Repeat(u, 1) == u;
    assert Repeat(u, 2) == u + u;
    assert Repeat(u, 3) == u + u + u;
    r
  }
}

=== FILE: text.dfy ===
/**
 ASCII text operations with the meaning Python gives them on ASCII strings:
 `str.lower`, `str.strip`, `str.split(sep)`, `sep.join`, `str.replace` of one
 character, the `in` substring test, the regex class `\s`, and the code-point
 ordering `sorted` uses on strings.
 */
module Text {

  /** Python's `str.isspace` (and the regex class `\s`) restricted to ASCII:
      tab, line feed, vertical tab, form feed, carriage return, the four
      information separators 0x1C-0x1F, and space. */
  predicate IsSpace(c: char) {
    var n := c as int;
    (9 <= n <= 13) || (28 <= n <= 32)
  }

  predicate IsUpper(c: char) {
    'A' <= c <= 'Z'
  }

  /** ASCII letter or digit: the characters `[a-zA-Z0-9]` of a regex class. */
  predicate IsAlnum(c: char) {
    ('a' <= c <= 'z') || ('A' <= c <= 'Z') || ('0' <= c <= '9')
  }

  /** `str.lower` on one ASCII character. */
  function LowerChar(c: char): (r: char)
    ensures !IsUpper(r)
    ensures IsUpper(c) ==> r as int == c as int + 32
    ensures !IsUpper(c) ==> r == c
  {
    if IsUpper(c) then (c as int + 32) as char else c
  }

  /** `str.lower` on an ASCII string: every upper-case letter becomes lower case,
      nothing else changes. */
  function Lower(s: string): (r: string)
    ensures |r| == |s|
    ensures forall i :: 0 <= i < |s| ==> r[i] == LowerChar(s[i])
    ensures forall i :: 0 <= i < |r| ==> !IsUpper(r[i])
  {
    seq(|s|, i requires 0 <= i < |s| => LowerChar(s[i]))
  }

  /** Lower-casing a string without upper-case letters changes nothing. */
  lemma LowerUnchanged(s: string)
    requires forall i :: 0 <= i < |s| ==> !IsUpper(s[i])
    ensures Lower(s) == s
  {
  }

  /** `str.replace(a, b)` for single characters `a` and `b`. */
  function ReplaceChar(s: string, a: char, b: char): (r: string)
    ensures |r| == |s|
    ensures forall i :: 0 <= i < |s| ==> r[i] == (if s[i] == a then b else s[i])
  {
    seq(|s|, i requires 0 <= i < |s| => if s[i] == a then b else s[i])
  }

  /** Replacing a character the string does not hold changes nothing. */
  lemma ReplaceAbsent(s: string, a: char, b: char)
    requires a !in s
    ensures ReplaceChar(s, a, b) == s
  {
  }

  /** The first position at or after `i` that does not hold whitespace (`|s|` if none). */
  function SkipSpace(s: string, i: nat): (k: nat)
    requires i <= |s|
    ensures i <= k <= |s|
    ensures forall m :: i <= m < k ==> IsSpace(s[m])
    ensures k < |s| ==> !IsSpace(s[k])
    decreases |s| - i
  {
    if i < |s| && IsSpace(s[i]) then SkipSpace(s, i + 1) else i
  }

  /** The smallest end `k`, no lower than `lo`, such that `s[k..j]` is all whitespace. */
  function SkipSpaceBack(s: string, lo: nat, j: nat): (k: nat)
    requires lo <= j <= |s|
    ensures lo <= k <= j
    ensures forall m :: k <= m < j ==> IsSpace(s[m])
    ensures lo < k ==> !IsSpace(s[k - 1])
    decreases j
  {
    if lo < j && IsSpace(s[j - 1]) then SkipSpaceBack(s, lo, j - 1) else j
  }

  predicate AllSpace(t: string) {
    forall i :: 0 <= i < |t| ==> IsSpace(t[i])
  }

  /** `s[a..b]` is `s` with a leading and a trailing whitespace run removed. */
  predicate TrimmedSlice(s: string, a: int, b: int) {
    && 0 <= a <= b <= |s|
    && (forall i :: 0 <= i < a ==> IsSpace(s[i]))
    && (forall i :: b <= i < |s| ==> IsSpace(s[i]))
  }

  /** `r` is `s` with a leading and a trailing whitespace run removed. */
  ghost predicate TrimOf(s: string, r: string) {
    exists a, b :: TrimmedSlice(s, a, b) && r == s[a..b]
  }

  /** `str.strip()`: the slice of `s` left after removing the leading and the
      trailing whitespace run; it neither starts nor ends with whitespace,
      inner whitespace stays, and it is empty exactly when `s` is all
      whitespace. */
  function Strip(s: string): (r: string)
    ensures |r| <= |s|
    ensures 0 < |r| ==> !IsSpace(r[0]) && !IsSpace(r[|r| - 1])
    ensures TrimOf(s, r)
    ensures forall i :: 0 <= i < |r| ==> r[i] in s
    ensures (forall i :: 0 <= i < |s| ==> IsSpace(s[i])) <==> r == []
  {
    var a := SkipSpace(s, 0);
    var b := SkipSpaceBack(s, a, |s|);
    assert TrimmedSlice(s, a, b);
    s[a..b]
  }

  /** Stripping a string that already has no whitespace at either end changes nothing. */
  lemma StripUnchanged(s: string)
    requires 0 < |s| ==> !IsSpace(s[0]) && !IsSpace(s[|s| - 1])
    ensures Strip(s) == s
  {
  }

  /** Stripping a string that ends in one whitespace character, and has none
      at either end otherwise, removes exactly that character. */
  lemma StripTrailingSpace(t: string, c: char)
    requires 0 < |t| && !IsSpace(t[0]) && !IsSpace(t[|t| - 1]) && IsSpace(c)
    ensures Strip(t + [c]) == t
  {
    var s := t + [c];
    assert s[0] == t[0] && s[|t|] == c && s[|t| - 1] == t[|t| - 1];
    assert SkipSpace(s, 0) == 0;
    assert SkipSpaceBack(s, 0, |t|) == |t|;
    assert SkipSpaceBack(s, 0, |s|) == |t|;
    assert s[0..|t|] == t;
  }

  /** `str.strip()` is idempotent. */
  lemma StripIdempotent(s: string)
    ensures Strip(Strip(s)) == Strip(s)
  {
    StripUnchanged(Strip(s));
  }

  /** Number of occurrences of `c` in `s`. */
  function Count(s: string, c: char): nat
    decreases |s|
  {
    if |s| == 0 then 0 else (if s[0] == c then 1 else 0) + Count(s[1..], c)
  }

  /** Python's `s.split(sep)` with an explicit one-character separator: the
      pieces between separators, always at least one (the empty string splits
      into `[""]`), one more than there are separators, none containing `sep`. */
  function Split(s: string, sep: char): (r: seq<string>)
    ensures |r| == Count(s, sep) + 1
    ensures forall k :: 0 <= k < |r| ==> sep !in r[k]
    ensures forall k, i :: 0 <= k < |r| && 0 <= i < |r[k]| ==> r[k][i] in s
    decreases |s|
  {
    if |s| == 0 then [""]
    else
      var rest := Split(s[1..], sep);
      if s[0] == sep then [""] + rest
      else [[s[0]] + rest[0]] + rest[1..]
  }

  /** Python's `sep.join(parts)` for a one-character separator. */
  function Join(parts: seq<string>, sep: char): string
    decreases |parts|
  {
    if |parts| == 0 then ""
    else if |parts| == 1 then parts[0]
    else parts[0] + [sep] + Join(parts[1..], sep)
  }

  lemma JoinCons(x: string, rest: seq<string>, sep: char)
    requires 0 < |rest|
    ensures Join([x] + rest, sep) == x + [sep] + Join(rest, sep)
  {
    assert ([x] + rest)[1..] == rest;
  }

  /** Prefixing the first part with `c` prefixes the join with `c`. */
  lemma JoinPrefixFirst(c: char, parts: seq<string>, sep: char)
    requires 0 < |parts|
    ensures Join([[c] + parts[0]] + parts[1..], sep) == [c] + Join(parts, sep)
  {
    if 1 < |parts| {
      JoinCons([c] + parts[0], parts[1..], sep);
      JoinCons(parts[0], parts[1..], sep);
      assert parts == [parts[0]] + parts[1..];
    }
  }

  /** Joining the pieces of a split gives back the original string. */
  lemma {:induction false} JoinSplit(s: string, sep: char)
    ensures Join(Split(s, sep), sep) == s
    decreases |s|
  {
    if |s| != 0 {
      var rest := Split(s[1..], sep);
      JoinSplit(s[1..], sep);
      assert s == [s[0]] + s[1..];
      if s[0] == sep {
        JoinCons("", rest, sep);
      } else {
        JoinPrefixFirst(s[0], rest, sep);
      }
    }
  }

  /** A string without the separator splits into itself alone. */
  lemma {:induction false} SplitNoSeparator(x: string, sep: char)
    requires sep !in x
    ensures Split(x, sep) == [x]
    decreases |x|
  {
    if |x| != 0 {
      SplitNoSeparator(x[1..], sep);
      assert x == [x[0]] + x[1..];
    }
  }

  /** Splitting `x + sep + t`, where `x` has no separator, yields `x` followed by the pieces of `t`. */
  lemma {:induction false} SplitAfterPiece(x: string, t: string, sep: char)
    requires sep !in x
    ensures Split(x + [sep] + t, sep) == [x] + Split(t, sep)
    decreases |x|
  {
    var s := x + [sep] + t;
    if |x| == 0 {
      assert s == [sep] + t;
      assert s[1..] == t;
    } else {
      assert s[1..] == x[1..] + [sep] + t;
      SplitAfterPiece(x[1..], t, sep);
      assert x == [x[0]] + x[1..];
    }
  }

  /** One step of `Split`: the pieces of a string with a first character `c`. */
  lemma SplitCons(c: char, t: string, sep: char)
    ensures Split([c] + t, sep) ==
      if c == sep then [""] + Split(t, sep)
      else [[c] + Split(t, sep)[0]] + Split(t, sep)[1..]
  {
    assert ([c] + t)[0] == c && ([c] + t)[1..] == t;
  }

  lemma ConsConcat<T>(h: T, p: seq<T>, q: seq<T>)
    ensures [h] + (p + q) == ([h] + p) + q
  {
  }

  /** Replacing the first element of `p` before or after appending `q` is the same. */
  lemma ReplaceHeadConcat<T>(h: T, p: seq<T>, q: seq<T>)
    requires 0 < |p|
    ensures [h] + (p + q)[1..] == ([h] + p[1..]) + q
  {
    assert (p + q)[1..] == p[1..] + q;
  }

  /** Splitting at a separator placed between `x` and `y` gives the pieces of
      `x` followed by the pieces of `y`: the pieces come out in input order. */
  lemma {:induction false} SplitConcat(x: string, y: string, sep: char)
    ensures Split(x + [sep] + y, sep) == Split(x, sep) + Split(y, sep)
    decreases |x|
  {
    var q := Split(y, sep);
    if |x| == 0 {
      assert x + [sep] + y == [sep] + y;
      SplitCons(sep, y, sep);
      assert Split(x, sep) == [""];
    } else {
      var c, t := x[0], x[1..];
      assert x == [c] + t;
      assert x + [sep] + y == [c] + (t + [sep] + y);
      SplitConcat(t, y, sep);
      var p := Split(t, sep);
      SplitCons(c, t + [sep] + y, sep);
      SplitCons(c, t, sep);
      if c == sep {
        ConsConcat("", p, q);
      } else {
        ReplaceHeadConcat([c] + p[0], p, q);
      }
    }
  }

  /** Splitting a join gives back the parts, provided there is at least one
      part and no part contains the separator. */
  lemma {:induction false} SplitJoin(parts: seq<string>, sep: char)
    requires 0 < |parts|
    requires forall k :: 0 <= k < |parts| ==> sep !in parts[k]
    ensures Split(Join(parts, sep), sep) == parts
    decreases |parts|
  {
    if |parts| == 1 {
      SplitNoSeparator(parts[0], sep);
    } else {
      SplitJoin(parts[1..], sep);
      SplitAfterPiece(parts[0], Join(parts[1..], sep), sep);
      assert parts == [parts[0]] + parts[1..];
    }
  }

  /** `t` occurs in `s` at position `i`. */
  predicate OccursAt(s: string, t: string, i: int) {
    0 <= i && i + |t| <= |s| && s[i..i + |t|] == t
  }

  /** Python's `t in s` for strings: `t` occurs somewhere in `s` (the empty
      string occurs in every string). */
  function Contains(s: string, t: string): (r: bool)
    ensures r <==> exists i :: OccursAt(s, t, i)
    decreases |s|
  {
    if t <= s then
      assert OccursAt(s, t, 0);
      true
    else if |s| == 0 then
      false
    else
      var r := Contains(s[1..], t);
      assert forall i :: OccursAt(s[1..], t, i) ==> OccursAt(s, t, i + 1);
      assert forall i :: 1 <= i && OccursAt(s, t, i) ==> OccursAt(s[1..], t, i - 1);
      r
  }

  /** Python's string `<`: code-point lexicographic order, a proper prefix
      coming first. */
  predicate LexLess(a: string, b: string)
    decreases |a|
  {
    if |a| == 0 then 0 < |b|
    else if |b| == 0 then false
    else if a[0] == b[0] then LexLess(a[1..], b[1..])
    else a[0] < b[0]
  }

  lemma {:induction false} LexLessIrreflexive(a: string)
    ensures !LexLess(a, a)
    decreases |a|
  {
    if 0 < |a| {
      LexLessIrreflexive(a[1..]);
    }
  }

  lemma {:induction false} LexLessTransitive(a: string, b: string, c: string)
    requires LexLess(a, b) && LexLess(b, c)
    ensures LexLess(a, c)
    decreases |a|
  {
    if 0 < |a| && 0 < |b| && 0 < |c| && a[0] == b[0] && b[0] == c[0] {
      LexLessTransitive(a[1..], b[1..], c[1..]);
    }
  }

  /** Any two different strings are ordered one way or the other. */
  lemma {:induction false} LexLessTotal(a: string, b: string)
    requires a != b
    ensures LexLess(a, b) || LexLess(b, a)
    decreases |a|
  {
    if 0 < |a| && 0 < |b| && a[0] == b[0] {
      assert a == [a[0]] + a[1..] && b == [b[0]] + b[1..];
      LexLessTotal(a[1..], b[1..]);
    }
  }

  lemma LexLessAsymmetric(a: string, b: string)
    requires LexLess(a, b)
    ensures !LexLess(b, a)
  {
    if LexLess(b, a) {
      LexLessTransitive(a, b, a);
      LexLessIrreflexive(a);
    }
  }
}

=== FILE: token_cache.dfy ===
/**
 The process-wide Spotify credential of the Node backend (backend/server.js):
 a two-field record, renewed through a client-credentials exchange whenever
 it is missing or its stored expiry has been reached. The stored expiry is
 300 seconds earlier than the real one.

 Clock readings are explicit integer milliseconds. The exchange itself is an
 input: either a grant, with the clock reading at which its response arrived,
 or a failure.
 */
module TokenCache {
  import opened Seqs

  /** `spotifyToken`: the bearer value and its expiry instant (milliseconds);
      both are null until the first renewal. */
  datatype Token = Token(value: Option<string>, expiresAt: Option<int>)

  const Initial: Token := Token(None, None)

  /** Seconds subtracted from the granted lifetime before storing the expiry. */
  const SafetyMarginSeconds := 300

  /** The response of the exchange: the access token, its lifetime in seconds,
      and the clock reading (`Date.now()`) when the response arrived. */
  datatype Grant = Granted(accessToken: string, expiresIn: int, receivedAt: int) | ExchangeFailed

  /** The value handed to a caller, or the error every failed exchange raises. */
  datatype Fetch = Fetched(bearer: string) | FetchFailed(message: string)

  const RenewalError := "Failed to get Spotify token"

  /** The expiry stored for a grant: `Date.now() + (expires_in - 300) * 1000`. */
  function StoredExpiry(g: Grant): int
    requires g.Granted?
  {
    g.receivedAt + (g.expiresIn - SafetyMarginSeconds) * 1000
  }

  /** `getSpotifyToken`: on a grant, replace both fields and return the new
      value; on failure, leave the cache as it was and raise. */
  function Renew(state: Token, grant: Grant): (r: (Token, Fetch))
    ensures grant.ExchangeFailed? ==> r.0 == state && r.1 == FetchFailed(RenewalError)
    ensures grant.Granted? ==> r.0.value == Some(grant.accessToken) && r.1 == Fetched(grant.accessToken)
    ensures grant.Granted? ==> r.0.expiresAt.Some? && r.0.expiresAt.value + SafetyMarginSeconds * 1000 == grant.receivedAt + grant.expiresIn * 1000
  {
    match grant
    case ExchangeFailed => (state, FetchFailed(RenewalError))
    case Granted(token, _, _) => (Token(Some(token), Some(StoredExpiry(grant))), Fetched(token))
  }

  /** `!spotifyToken.value || Date.now() >= spotifyToken.expiresAt`: no value
      (null or empty), or the clock has reached the stored expiry. JavaScript
      compares a number with null as with 0. */
  predicate NeedsRenewal(state: Token, now: int) {
    Blank(state.value) || now >= state.expiresAt.GetOr(0)
  }

  /** The result of `ensureValidToken`: the new cache, what the caller gets,
      and whether an exchange was made. */
  datatype Access = Access(state: Token, result: Fetch, exchanged: bool)

  /** `ensureValidToken`: renew when needed, then hand out the cached value. */
  function EnsureValidToken(state: Token, now: int, grant: Grant): (a: Access)
    ensures a.exchanged <==> NeedsRenewal(state, now)
    ensures !a.exchanged ==> a.state == state && a.result == Fetched(state.value.value)
    ensures a.exchanged ==> (a.state, a.result) == Renew(state, grant)
    ensures a.exchanged && grant.ExchangeFailed? ==> a.state == state && a.result == FetchFailed(RenewalError)
    ensures a.exchanged && grant.Granted? ==>
      a.state == Token(Some(grant.accessToken), Some(StoredExpiry(grant))) && a.result == Fetched(grant.accessToken)
    ensures a.result.Fetched? ==> a.state.value == Some(a.result.bearer)
  {
    if NeedsRenewal(state, now) then
      var (next, result) := Renew(state, grant);
      Access(next, result, true)
    else
      Access(state, Fetched(state.value.value), false)
  }

  /** A renewed token is served from the cache for exactly `expires_in - 300`
      seconds after its response arrived: a call at any earlier instant does
      not renew, a call at that instant or later does. */
  lemma RenewedTokenLifetime(state: Token, grant: Grant, now: int)
    requires grant.Granted? && grant.accessToken != ""
    ensures var renewed := Renew(state, grant).0;
      NeedsRenewal(renewed, now) <==> now >= grant.receivedAt + (grant.expiresIn - SafetyMarginSeconds) * 1000
  {
  }

  /** When a call renews the token and the grant's lifetime exceeds the margin,
      a second call at the instant the grant arrived uses the cache: it makes
      no exchange, changes nothing and hands out the same token. */
  lemma NoSecondRenewal(state: Token, now: int, grant: Grant, later: Grant)
    requires NeedsRenewal(state, now)
    requires grant.Granted? && grant.accessToken != "" && grant.expiresIn > SafetyMarginSeconds
    ensures var first := EnsureValidToken(state, now, grant);
      var second := EnsureValidToken(first.state, grant.receivedAt, later);
      first.result.Fetched? && !second.exchanged && second.state == first.state && second.result == first.result
  {
    RenewedTokenLifetime(state, grant, grant.receivedAt);
  }

  /** An empty access token is falsy, so it is renewed on every call. */
  lemma EmptyTokenAlwaysRenewed(state: Token, grant: Grant, now: int)
    requires grant.Granted? && grant.accessToken == ""
    ensures EnsureValidToken(Renew(state, grant).0, now, grant).exchanged
  {
  }

  /** A value served from the cache without renewing has more than the 300-second
      margin of its granted lifetime left: the cache never hands out a token in
      the last five minutes before the expiry the exchange announced. */
  lemma ServedTokenHasMargin(state: Token, grant: Grant, now: int, later: Grant)
    requires grant.Granted?
    ensures var renewed := Renew(state, grant).0;
      var a := EnsureValidToken(renewed, now, later);
      !a.exchanged ==> now + SafetyMarginSeconds * 1000 < grant.receivedAt + grant.expiresIn * 1000
  {
  }
}
